=== FILE: README.md ===
# Costco spending analysis: monthly reshaping, in Dafny

This project models the data-reshaping core of `CostcoSpendingAnalysis.py`. The script reads
purchase transactions (TransactionDate, SoldPrice, PersonID) from a database and reshapes them
into three month-bucketed or pivoted tables for charting:

1. **Household monthly series** (lines 17-20): `process_data` converts the date column and
   makes it the index, then `resample('MS').sum()` and `resample('MS').count()` give the
   dollars and the item count per month. Each month is labelled by its first day.
2. **Per-member panel** (lines 46-57): the script sums per (month, PersonID) and builds
   `all_dates = pd.date_range(min, max, freq='MS')`. It crosses that range with the distinct
   PersonIDs, reindexes with `fill_value=0`, and unstacks to one column per member.
3. **Legend labels** (line 75): a line label such as `(SoldPrice, 2)` is decoded to the
   member's initials with `member_ids[int(label.split(', ')[1].strip(')'))]`.
4. **Spending breakdown** (lines 80-94): the script pivots PersonID against
   (IsEdible, DiscountStatus) with pandas' default `mean` aggregation and `fill_value=0`.
   Each member's pie title shows the sum of that member's cells.

Dates are already-parsed `(year, month, day)` triples and amounts are integer cents. A
month is `(year, month)`. Month order uses `Index(m) = 12 * year + month - 1`, so
consecutive months differ by one. The breakdown cells are means, so they are `real`.

Modules, one per file:

- `Results`: the `Result`/`Option` types for the operations that raise.
- `Calendar`: dates, months, month-starts, the one-month step and inclusive month ranges.
- `Seqs`: sums, distinctness, `unique()` and the sorted distinct values of an index level.
- `Buckets`: keyed sums. This is the aggregation behind `resample().sum()`,
  `groupby().sum()` and `pivot_table`. It has the generic conservation lemmas.
- `Purchases`: the transaction record, `process_data`, and the earliest and latest dates.
- `Resample`: the household monthly series.
- `MemberPanel`: the per-member panel as written, and a corrected panel.
- `Labels`: Python's `split`, `strip`, `int` and `str`, and the legend-label decoding.
- `Breakdown`: the breakdown pivot and the pie-chart title totals.

Four places where the code does something other than its surroundings suggest:

- The comment at CostcoSpendingAnalysis.py:50 says the new date range "includes all months".
  The `date_range` call at line 51 starts at the first month-start on or after the index
  minimum. So when the earliest transaction is not on the 1st, its month is not in the range.
  See Findings.
- For an empty member frame, `index.min()` and `index.max()` are NaT, and `date_range` raises
  on NaT bounds. `MemberPanel.Panel` therefore returns `Failure(EmptyFrame)` for an empty
  input. The corrected panel takes its months from the monthly resample, so it gives an empty
  table instead.
- pandas bins an 'MS' resample (lines 19-20) and a `pd.Grouper(freq="MS")` (line 48) between
  two edges. The first is the month-start on or before the earliest date. The second is the
  month-start after the latest date. A date in 1677-09-22..30 or in 2262-04-01..11 converts,
  but then one edge lies outside pandas' timestamp range and pandas raises OutOfBoundsDatetime.
  `Resample.HouseholdMonthly`, `MemberPanel.Panel` and `MemberPanel.MemberPanelOf` fail with
  `BinOutOfBounds` there. The queries at config.py:8-9 keep only transactions of 2024, so the
  script's own data never reaches this case.
- `unstack('PersonID')` at line 57 sorts the PersonID level. The panel's columns are therefore
  in ascending order, not in the first-appearance order of `unique()` at line 54.

## Model

| member | source | states |
|---|---|---|
| Purchases.ProcessData | CostcoSpendingAnalysis.py:11-14 | Succeeds exactly when every date converts, and then returns the rows unchanged. Otherwise it reports the first row whose date is not a calendar date or lies outside pandas' nanosecond timestamp range. |
| Purchases.MinDate | CostcoSpendingAnalysis.py:51 | The index minimum is one of the transaction dates, and no transaction date is earlier. |
| Purchases.MaxDate | CostcoSpendingAnalysis.py:51 | The index maximum is one of the transaction dates, and no transaction date is later. |
| Resample.AxisCoversRecords | CostcoSpendingAnalysis.py:19-20 | Every record's month is one of the resampled months, so no transaction falls outside the bins. |
| Calendar.MonthRange | CostcoSpendingAnalysis.py:19 | The month-start sequence from lo to hi has hi - lo + 1 valid months (none when hi is before lo). Its i-th month is i months after lo. |
| Calendar.MonthRangeMembers | CostcoSpendingAnalysis.py:19 | A month range contains exactly the valid months between its bounds, inclusive. |
| Resample.AxisShape | CostcoSpendingAnalysis.py:19-20 | The resampled axis is contiguous and strictly increasing. It runs from the earliest record's month to the latest record's month, and is empty exactly when the table is. |
| Resample.EachRecordOneBucket | CostcoSpendingAnalysis.py:19-20 | Every record falls in exactly one bucket, the one labelled with the first day of its month. |
| Resample.EmptyMonthsZero | CostcoSpendingAnalysis.py:19-20 | A month with no transactions has a 0 dollar bucket and a 0 count wherever it appears on the axis. |
| Resample.MonthlyDollars | CostcoSpendingAnalysis.py:19 | `resample('MS').sum()`: one value per axis month. See `DollarConservation`, `EachRecordOneBucket` and `EmptyMonthsZero`. |
| Resample.DollarConservation | CostcoSpendingAnalysis.py:19 | The monthly dollar buckets add up to the total SoldPrice. |
| Resample.MonthlyItems | CostcoSpendingAnalysis.py:20 | `resample('MS').count()`: one count per axis month. See `ItemConservation` and `EmptyMonthsZero`. |
| Resample.ItemConservation | CostcoSpendingAnalysis.py:20 | The monthly counts add up to the number of transactions. |
| Resample.HouseholdMonthly | CostcoSpendingAnalysis.py:17-20 | A rejected date fails with the same error as `process_data`. Otherwise, when an 'MS' bin edge lies outside the timestamp range, the resample fails with `BinOutOfBounds`. It succeeds exactly when neither happens. On success both series share one month axis and conserve the dollar total and the row count. |
| Purchases.BinEdgesWithin | CostcoSpendingAnalysis.py:19-20 | For converted dates, the 'MS' bin edges lie within the timestamp range exactly when every date is between 1677-10-01 and 2262-03-31. |
| Resample.LatePurchaseRaises | CostcoSpendingAnalysis.py:17-20 | One purchase on 2262-04-05 converts, but its last bin edge, 2262-05-01, is out of range, so the resample fails with `BinOutOfBounds`. |
| Resample.Axis | CostcoSpendingAnalysis.py:19-20 | The 'MS' bins, from the earliest record's month to the latest's. See `AxisShape` and `AxisCoversRecords`. |
| Buckets.PerKeyConservation | CostcoSpendingAnalysis.py:48 | Over distinct keys, the per-key sums add up to the total of the elements whose key is among them. |
| MemberPanel.GroupSum | CostcoSpendingAnalysis.py:48 | Every (month, person) pair that occurs in the data has a group. Each group holds the sum of that person's SoldPrice in that month. |
| MemberPanel.AllDates | CostcoSpendingAnalysis.py:51 | `date_range(min, max, freq='MS')`. See `AllDatesMembers` and `AllMonthsIncluded`. |
| MemberPanel.AllDatesMembers | CostcoSpendingAnalysis.py:51 | `all_dates` is strictly increasing and steps by one calendar month. It holds exactly the months whose first day lies in [earliest date, latest date]. |
| MemberPanel.AllMonthsIncluded | CostcoSpendingAnalysis.py:50-51 | The range contains the month of every transaction exactly when the earliest transaction is on day 1 of its month. |
| MemberPanel.Persons | CostcoSpendingAnalysis.py:54 | `unique()` yields each PersonID of the data once, and no other value. |
| Seqs.UniqueInOrder | CostcoSpendingAnalysis.py:54 | `unique()` lists its values in the order of their first occurrence. |
| MemberPanel.Members | CostcoSpendingAnalysis.py:54-57 | The member level of the unstacked columns: strictly ascending, and exactly the PersonIDs present in the data. |
| MemberPanel.Product | CostcoSpendingAnalysis.py:54 | `MultiIndex.from_product`: month-major pairs of a range month and a PersonID. See `ProductMembers`. |
| MemberPanel.ProductMembers | CostcoSpendingAnalysis.py:54 | The MultiIndex holds exactly the pairs of a range month and a present PersonID, each pair once. |
| MemberPanel.Reindex | CostcoSpendingAnalysis.py:56 | `reindex(index, fill_value=0)`. See `ReindexComplete`. |
| MemberPanel.ReindexComplete | CostcoSpendingAnalysis.py:54-56 | After the reindex, every (month, person) pair of range months × present PersonIDs has exactly one entry. Each entry is that person's spending in that month, 0 when the person bought nothing then. No other pair appears, so no absent person does. |
| MemberPanel.Panel | CostcoSpendingAnalysis.py:46-57 | The panel as written from converted rows: it fails with `BinOutOfBounds` when a bin edge of the grouping at line 48 is out of range, and on an empty table. See `PanelConservation` and `FirstMonthDropped` for its column totals and `MemberPanelOf` for its shape. |
| MemberPanel.MemberPanelOf | CostcoSpendingAnalysis.py:46-57 | From the raw member rows: a rejected date fails with the same error as `process_data`. Otherwise an 'MS' bin edge of the grouping outside the timestamp range fails with `BinOutOfBounds`, and an empty table fails (NaT bounds). It succeeds exactly when none of these happens. Otherwise the panel has the `all_dates` months as rows, ascending columns, and, when there is at least one month, exactly the present PersonIDs as columns; without months it has no columns. |
| MemberPanel.LatePurchasePanel | CostcoSpendingAnalysis.py:46-48 | The grouping at line 48 fails with `BinOutOfBounds` on the purchase of 2262-04-05, as the resample does. |
| MemberPanel.SingleMidMonthPanel | CostcoSpendingAnalysis.py:51-57 | One transaction of 1000 cents on 2024-01-15 gives a panel with no month rows and no columns, so the member's 1000 cents appear nowhere. |
| MemberPanel.Unstack | CostcoSpendingAnalysis.py:57 | Months as rows; no columns when there are no months. See `PanelCells` for the columns and cells. |
| MemberPanel.PanelCells | CostcoSpendingAnalysis.py:57 | The unstacked panel has one row per range month. With at least one month, it has one column per present PersonID, in ascending order and no others; with none, `unstack` drops the unused PersonID level and there are no columns. Each cell is the reindexed entry for its (month, member) pair. |
| MemberPanel.ColumnTotal | CostcoSpendingAnalysis.py:56-57 | A member's column adds up to that member's spending in the range months. |
| MemberPanel.PanelConservation | CostcoSpendingAnalysis.py:48-57 | The panel is built exactly when the bin edges of the grouping are in range. As written, a member's column total equals the member's raw total when the earliest transaction is on day 1. Otherwise it is the raw total minus the member's spending in the earliest transaction's month. |
| MemberPanel.FirstMonthDropped | CostcoSpendingAnalysis.py:50-56 | On the two-transaction example, the range is February to March 2024, and member 1's column adds up to 0 although member 1 spent 1000 cents. |
| MemberPanel.FixedPanelConservation | CostcoSpendingAnalysis.py:50-57 | With the range starting at the earliest transaction's month, every member's column adds up to that member's raw total. |
| MemberPanel.FixedPanelExample | CostcoSpendingAnalysis.py:50-57 | On the same example, the corrected panel covers January to March, and member 1's column keeps the 1000 cents. |
| Labels.Split | CostcoSpendingAnalysis.py:75 | `split(', ')`: at least one piece. See `SplitJoin` and `SplitAfter`. |
| Labels.SplitJoin | CostcoSpendingAnalysis.py:75 | Joining the pieces of `split(sep)` with sep gives back the original string. |
| Labels.SplitAfter | CostcoSpendingAnalysis.py:75 | The first piece of a split ends at the first separator: when no occurrence of sep starts inside a, `(a + sep + b).split(sep)` is a followed by the pieces of b. |
| Labels.StripLeft | CostcoSpendingAnalysis.py:75 | `lstrip(c)` removes exactly the leading run of c: the result is a suffix that does not start with c. |
| Labels.StripRight | CostcoSpendingAnalysis.py:75 | `rstrip(c)` removes exactly the trailing run of c: the result is a prefix that does not end with c. |
| Labels.Strip | CostcoSpendingAnalysis.py:75 | `strip(')')`: the result neither starts nor ends with ')'. See `StripLeft` and `StripRight` for what it removes. |
| Labels.ParseInt | CostcoSpendingAnalysis.py:75 | `int()` succeeds exactly on an optional sign followed by at least one ASCII digit. Its value v is then spelled by the text: a sign that fits v ('-' only for v <= 0), leading zeros, then `str(abs(v))`. |
| Labels.SpelledParses | CostcoSpendingAnalysis.py:75 | The converse: every text that spells v parses to v. With ParseInt's contract, `int(s) == v` exactly when s spells v. |
| Labels.ParseShow | CostcoSpendingAnalysis.py:75 | `int(str(k)) == k` for every integer k. |
| Labels.DecodeLabel | CostcoSpendingAnalysis.py:75 | A successful decode yields initials from the directory. See `LabelRoundTrip`, `NoSeparatorFails` and `MemberLabels` for its results and errors. |
| Labels.ColumnLabel | CostcoSpendingAnalysis.py:61 | The legend text that plotting the panel gives the column ('SoldPrice', k): `(SoldPrice, k)`. See `LabelSplits` and `LabelRoundTrip`. |
| Labels.LabelSplits | CostcoSpendingAnalysis.py:74-75 | A legend label `(column, k)` splits at ", " into "(column" and "k)" when the column name does not contain ", ". |
| Labels.LabelRoundTrip | CostcoSpendingAnalysis.py:75 | The label `(column, k)` of any column name that does not contain ", " decodes to `ids[k]`, or raises KeyError when k is not in the directory. |
| Labels.NoSeparatorFails | CostcoSpendingAnalysis.py:75 | A label that does not contain ", " has no second piece, so decoding raises IndexError. |
| Labels.MemberLabels | CostcoSpendingAnalysis.py:75 | With the directory of config.py, `(SoldPrice, k)` decodes exactly for k in {1, 2, 3}, to BF, RM and KR. |
| Labels.PanelLabelsDecode | CostcoSpendingAnalysis.py:74-75 | When every PersonID is 1, 2 or 3 (the member query's filter), every panel column's legend label decodes to that member's initials. |
| Breakdown.Mean | CostcoSpendingAnalysis.py:80 | A pivot cell is 0 for a group without rows. Otherwise it times the group's row count equals the group's TotalSpent sum, so it is the mean. |
| Breakdown.PivotTable | CostcoSpendingAnalysis.py:80 | Rows are the present PersonIDs in ascending order. Columns are the present (IsEdible, DiscountStatus) pairs, each once. Every row has one cell per column. |
| Breakdown.PivotCells | CostcoSpendingAnalysis.py:80 | A cell's group has no rows exactly when its count is 0. The cell is then 0; otherwise it is its group's mean. |
| Breakdown.MeanOfGroup | CostcoSpendingAnalysis.py:80 | An empty group shows 0. When no two rows share a group, each cell is its single row's TotalSpent. |
| Breakdown.DollarsSpent | CostcoSpendingAnalysis.py:81 | `sum(axis=1)`: one total per pivot row. See `TitleTotal`, `TitleIsSumOfMeans` and `SumTitleTotal`. |
| Breakdown.TitleTotal | CostcoSpendingAnalysis.py:80-85 | When no two rows share a (member, column) group, a member's title total equals the member's total TotalSpent. |
| Breakdown.TitleIsSumOfMeans | CostcoSpendingAnalysis.py:80-85 | With two rows of 100 and 300 cents in one group, the mean pivot's title total is 200 cents while the member spent 400. The sum pivot gives 400. |
| Breakdown.SumTitleTotal | CostcoSpendingAnalysis.py:80-85 | With group sums as cells (`aggfunc='sum'`), every member's title total equals the member's total TotalSpent, for all rows. |
| Breakdown.Titles | CostcoSpendingAnalysis.py:83-94 | Every member gets a title with its initials and its total when all PersonIDs are in the directory. Otherwise the first missing PersonID is reported (KeyError). |

## Left out

- Database access (`mysql.connector.connect`, `read_sql_query`, `db.close`) and the credentials read from the environment: these are I/O. Rows arrive as sequences.
- All matplotlib plotting, axis formatting, legends and `plt.show`: these are UI.
- Parsing of date strings, times of day and time zones: dates arrive as `(year, month, day)` triples. `ProcessData` models only which triples `pd.to_datetime` rejects.
- Floating-point amounts and the `:.2f` and percentage formatting: amounts are integer cents and the breakdown means are exact reals.
- NULL SoldPrice values, which `sum` skips and `count` does not count: every modelled record has an amount.
- The SQL query strings. The breakdown query returns Category/TotalSoldPrice/Month columns, not the PersonID/IsEdible/DiscountStatus/TotalSpent rows the pivot reads. The pivot is modelled over the rows it reads.
- Breakdown.PivotTable: does not model the order of the breakdown columns. pandas sorts them, and the model keeps them in first-appearance order. Their order only matters for the pie-slice labels, which are left out together with the pie charts.
- The unused `food_items` and `non_food_items` lists of config.py.
- Resample.MonthlyDollars: the household query has no PersonID. The model reuses the member record type and ignores its person field.
- Labels.ParseInt: models `int()` on an optional sign and ASCII digits. Surrounding whitespace, digit-group underscores and non-ASCII digits, which Python also accepts, are not modelled. They never occur in a label produced from an integer.
- MemberPanel.Unstack: models the shape and values of the unstacked frame, not its index names or dtypes. For an empty month range it gives no rows and no columns, as pandas' unstack does after dropping unused index levels; a single transaction on 2024-01-15 reaches this case (`SingleMidMonthPanel`).
- MemberPanel.Panel: requires every date to be a valid calendar date. The date conversion of line 46 and its errors are modelled by `MemberPanelOf`, which runs `ProcessData` first.
- MemberPanel.FixedPanel: the corrected panel is a table over the resample's month axis. It leaves out the failures it would share with `Panel`: rejected dates, and bin edges out of range at line 48.
- MemberPanel.AllMonthsIncluded: timestamps with a time of day are outside the model. Dates arrive at midnight, so "day 1" in the contract means midnight on the 1st.
- MemberPanel.GroupSum: the group sums are keyed by observed (month, person) pairs only. Whether pandas also materialises empty combinations does not change the reindexed result.

## Findings

| source | as written | input that shows it | evidently intended | confidence | as-written member | corrected member |
|---|---|---|---|---|---|---|
| CostcoSpendingAnalysis.py:50-51 | `pd.date_range(start=index.min(), end=index.max(), freq='MS')` starts at the first month-start on or after the earliest transaction. When that transaction is not on the 1st, its month is left out, and the reindex drops that month's sums. | 1000 cents by member 1 on 2024-01-15 and 500 cents by member 2 on 2024-03-02. The range is February to March 2024, and member 1's column adds up to 0. | The range starts at the first day of the earliest transaction's month, as the comment "includes all months" says. Every member's column then adds up to that member's total. | high; not executed | MemberPanel.FirstMonthDropped | MemberPanel.FixedPanelConservation |
| CostcoSpendingAnalysis.py:80-81 | `pivot_table` uses its default `aggfunc='mean'`, and `sum(axis=1)` adds the means. A member with several rows in one (IsEdible, DiscountStatus) group gets a title total below what the member spent. | Member 1 has two rows in column (1, 0), of 100 and 300 cents. The cell is 200, and the title shows 200 cents although the member spent 400. | The title shows the member's total spent, which `aggfunc='sum'` gives. | medium: the query as written groups by month as well, so several rows per group are expected; not executed | Breakdown.TitleIsSumOfMeans | Breakdown.SumTitleTotal |

=== FILE: breakdown.dfy ===
/** The spending breakdown (CostcoSpendingAnalysis.py:79-94): a pivot of the
    breakdown rows with PersonID as rows and (IsEdible, DiscountStatus) as
    columns, aggregated by pandas' default mean and zero-filled, and the
    per-member total shown in each pie chart's title. */
module Breakdown {
  import opened Results
  import opened Seqs
  import opened Buckets

  /** The (IsEdible, DiscountStatus) column of the pivot. */
  datatype Slice = Slice(edible: int, discount: int)

  /** A breakdown row as the pivot reads it: PersonID, IsEdible,
      DiscountStatus and TotalSpent (in cents). */
  datatype SpendRow = SpendRow(person: int, slice: Slice, spent: int)

  /** The pivot's group key: a member and a column. */
  datatype Group = Group(person: int, slice: Slice)

  /** The pivot table: cells[i][j] is the value for member persons[i] in
      column slices[j]. */
  datatype Pivot = Pivot(persons: seq<int>, slices: seq<Slice>, cells: seq<seq<real>>)

  /** The title of one member's pie chart: initials and total spent. */
  datatype Title = Title(member: string, total: real)

  function GroupOf(r: SpendRow): Group {
    Group(r.person, r.slice)
  }

  function RowPerson(r: SpendRow): int {
    r.person
  }

  function Spent(r: SpendRow): int {
    r.spent
  }

  /** The PersonIDs that occur in the rows. */
  function PersonsOf(rows: seq<SpendRow>): set<int> {
    ImageSet(rows, RowPerson)
  }

  function SliceOf(r: SpendRow): Slice {
    r.slice
  }

  /** The (IsEdible, DiscountStatus) pairs that occur in the rows. */
  function SlicesOf(rows: seq<SpendRow>): set<Slice> {
    ImageSet(rows, SliceOf)
  }

  /** No two rows share a (member, column) group, as a query grouped by
      those columns returns them. */
  predicate UniqueGroups(rows: seq<SpendRow>) {
    forall i, j :: 0 <= i < j < |rows| ==> GroupOf(rows[i]) != GroupOf(rows[j])
  }

  /** The `pivot_table` cell: the mean TotalSpent of the rows of the group,
      or the fill value 0 when the group has no rows. */
  function Mean(rows: seq<SpendRow>, g: Group): (v: real)
    ensures SumAt(rows, GroupOf, One, g) == 0 ==> v == 0.0
    ensures SumAt(rows, GroupOf, One, g) > 0 ==>
      v * (SumAt(rows, GroupOf, One, g) as real) == SumAt(rows, GroupOf, Spent, g) as real
  {
    var n := SumAt(rows, GroupOf, One, g);
    if n <= 0 then 0.0 else (SumAt(rows, GroupOf, Spent, g) as real) / (n as real)
  }

  /** `pivot_table(index="PersonID", columns=['IsEdible', 'DiscountStatus'],
      values="TotalSpent", fill_value=0)`: members in ascending order, one
      column per (IsEdible, DiscountStatus) pair that occurs. */
  function PivotTable(rows: seq<SpendRow>): (pv: Pivot)
    ensures StrictlyIncreasing(pv.persons)
    ensures forall p :: p in pv.persons <==> p in PersonsOf(rows)
    ensures Distinct(pv.slices)
    ensures forall s :: s in pv.slices <==> s in SlicesOf(rows)
    ensures |pv.cells| == |pv.persons|
    ensures forall i :: 0 <= i < |pv.persons| ==> |pv.cells[i]| == |pv.slices|
  {
    var ps := Pick(rows, RowPerson);
    var ss := Pick(rows, SliceOf);
    var persons := SortedDistinct(ps);
    var slices := Unique(ss);
    Pivot(persons, slices,
      seq(|persons|, i requires 0 <= i < |persons| =>
        seq(|slices|, j requires 0 <= j < |slices| => Mean(rows, Group(persons[i], slices[j])))))
  }

  /** `sum(axis=1)`: each member's total over the pivot's columns. */
  function DollarsSpent(pv: Pivot): (totals: seq<real>)
    ensures |totals| == |pv.cells|
  {
    seq(|pv.cells|, i requires 0 <= i < |pv.cells| => SumReal(pv.cells[i]))
  }

  /** The titles of the pie charts, member by member; the PersonID of the
      first member missing from the directory when `member_ids[member]`
      raises KeyError. */
  function Titles(persons: seq<int>, totals: seq<real>, ids: map<int, string>): (r: Result<seq<Title>, int>)
    requires |totals| == |persons|
    ensures r.Success? <==> forall i :: 0 <= i < |persons| ==> persons[i] in ids
    ensures r.Success? ==>
      && |r.value| == |persons|
      && forall i :: 0 <= i < |persons| ==> r.value[i] == Title(ids[persons[i]], totals[i])
    ensures r.Failure? ==>
      exists i :: 0 <= i < |persons| && persons[i] == r.error && r.error !in ids
        && forall j :: 0 <= j < i ==> persons[j] in ids
  {
    if |persons| == 0 then Success([])
    else if persons[0] !in ids then Failure(persons[0])
    else
      match Titles(persons[1..], totals[1..], ids)
      case Failure(p) =>
        assert forall i :: 1 <= i < |persons| ==> persons[i] == persons[1..][i - 1];
        Failure(p)
      case Success(ts) => Success([Title(ids[persons[0]], totals[0])] + ts)
  }

  // ---------------------------------------------------------------------

  /** A group with no rows shows 0; with unique groups every cell is the one
      row's TotalSpent. */
  lemma MeanOfGroup(rows: seq<SpendRow>, g: Group)
    ensures (forall i :: 0 <= i < |rows| ==> GroupOf(rows[i]) != g) ==> Mean(rows, g) == 0.0
    ensures UniqueGroups(rows) ==> Mean(rows, g) == SumAt(rows, GroupOf, Spent, g) as real
  {
    CountNonNegative(rows, GroupOf, g);
    if forall i :: 0 <= i < |rows| ==> GroupOf(rows[i]) != g {
      SumAtAbsent(rows, GroupOf, One, g);
    }
    if UniqueGroups(rows) {
      CountAtMostOne(rows, GroupOf, g);
      if SumAt(rows, GroupOf, One, g) == 0 {
        CountZero(rows, GroupOf, g);
        SumAtAbsent(rows, GroupOf, Spent, g);
      }
    }
  }

  /** Summing integer buckets as reals. */
  lemma {:induction false} SumAsReal(xs: seq<int>)
    ensures SumReal(seq(|xs|, i requires 0 <= i < |xs| => xs[i] as real)) == Sum(xs) as real
  {
    if |xs| > 0 {
      SumAsReal(xs[1..]);
      var r := seq(|xs|, i requires 0 <= i < |xs| => xs[i] as real);
      assert r[1..] == seq(|xs[1..]|, i requires 0 <= i < |xs[1..]| => xs[1..][i] as real);
    }
  }

  /** Over the pivot's columns, a member's group sums add up to the
      member's total TotalSpent. */
  lemma RowTotal(rows: seq<SpendRow>, i: nat)
    requires i < |PivotTable(rows).persons|
    ensures var pv := PivotTable(rows);
      SumReal(seq(|pv.slices|, j requires 0 <= j < |pv.slices| => SumAt(rows, GroupOf, Spent, Group(pv.persons[i], pv.slices[j])) as real))
        == SumAt(rows, RowPerson, Spent, pv.persons[i]) as real
  {
    var pv := PivotTable(rows);
    var p := pv.persons[i];
    var ks := seq(|pv.slices|, j requires 0 <= j < |pv.slices| => Group(p, pv.slices[j]));
    var sums := PerKey(rows, GroupOf, Spent, ks);
    assert seq(|pv.slices|, j requires 0 <= j < |pv.slices| => SumAt(rows, GroupOf, Spent, Group(p, pv.slices[j])) as real)
      == seq(|sums|, j requires 0 <= j < |sums| => sums[j] as real);
    SumAsReal(sums);
    assert Distinct(ks);
    PerKeyConservation(rows, GroupOf, Spent, ks);
    forall n | 0 <= n < |rows|
      ensures GroupOf(rows[n]) in ks <==> RowPerson(rows[n]) == p
    {
      if rows[n].person == p {
        assert rows[n] in rows;
        assert SliceOf(rows[n]) in SlicesOf(rows);
        var j :| 0 <= j < |pv.slices| && pv.slices[j] == rows[n].slice;
        assert ks[j] == GroupOf(rows[n]);
      }
    }
    SumInSelect(rows, GroupOf, RowPerson, Spent, ks, p);
  }

  /** When no two rows share a (member, column) group, the title total of a
      member is the member's total TotalSpent. */
  lemma TitleTotal(rows: seq<SpendRow>, i: nat)
    requires i < |PivotTable(rows).persons|
    ensures UniqueGroups(rows) ==>
      DollarsSpent(PivotTable(rows))[i] == SumAt(rows, RowPerson, Spent, PivotTable(rows).persons[i]) as real
  {
    if UniqueGroups(rows) {
      var pv := PivotTable(rows);
      var p := pv.persons[i];
      forall j | 0 <= j < |pv.slices|
        ensures pv.cells[i][j] == SumAt(rows, GroupOf, Spent, Group(p, pv.slices[j])) as real
      {
        MeanOfGroup(rows, Group(p, pv.slices[j]));
      }
      assert pv.cells[i] == seq(|pv.slices|, j requires 0 <= j < |pv.slices| => SumAt(rows, GroupOf, Spent, Group(p, pv.slices[j])) as real);
      RowTotal(rows, i);
    }
  }

  /** The pivot with `aggfunc='sum'`: the same members and columns, each cell
      the group's TotalSpent sum (0 for an empty group). */
  function SumPivot(rows: seq<SpendRow>): (pv: Pivot)
    ensures pv.persons == PivotTable(rows).persons && pv.slices == PivotTable(rows).slices
    ensures |pv.cells| == |pv.persons|
    ensures forall i :: 0 <= i < |pv.persons| ==> |pv.cells[i]| == |pv.slices|
  {
    var pt := PivotTable(rows);
    Pivot(pt.persons, pt.slices,
      seq(|pt.persons|, i requires 0 <= i < |pt.persons| =>
        seq(|pt.slices|, j requires 0 <= j < |pt.slices| =>
          SumAt(rows, GroupOf, Spent, Group(pt.persons[i], pt.slices[j])) as real)))
  }

  /** With group sums instead of means, every member's title total is the
      member's total TotalSpent, whatever the rows. */
  lemma SumTitleTotal(rows: seq<SpendRow>, i: nat)
    requires i < |SumPivot(rows).persons|
    ensures DollarsSpent(SumPivot(rows))[i] == SumAt(rows, RowPerson, Spent, SumPivot(rows).persons[i]) as real
  {
    RowTotal(rows, i);
  }

  /** Two rows of member 1 in the same column (1, 0), of 100 and 300 cents. */
  function Doubled(): seq<SpendRow> {
    [SpendRow(1, Slice(1, 0), 100), SpendRow(1, Slice(1, 0), 300)]
  }

  /** For Doubled the pivot cell is the mean, 200, so the title shows 200
      cents although the member spent 400; the sum pivot shows 400. */
  lemma TitleIsSumOfMeans()
    ensures PivotTable(Doubled()).persons == [1]
    ensures DollarsSpent(PivotTable(Doubled()))[0] == 200.0
    ensures SumAt(Doubled(), RowPerson, Spent, 1) == 400
    ensures DollarsSpent(SumPivot(Doubled()))[0] == 400.0
  {
    var rows := Doubled();
    DoubledAxes();
    DoubledSums();
    var pv := PivotTable(rows);
    var g := Group(1, Slice(1, 0));
    assert pv.cells[0] == [Mean(rows, g)];
    assert Mean(rows, g) == 200.0;
    assert SumReal([200.0]) == 200.0;
    RowTotal(rows, 0);
  }

  /** Doubled's pivot has one member and one column. */
  lemma DoubledAxes()
    ensures PivotTable(Doubled()).persons == [1]
    ensures PivotTable(Doubled()).slices == [Slice(1, 0)]
  {
    var rows := Doubled();
    var ps := Pick(rows, RowPerson);
    var ss := Pick(rows, SliceOf);
    assert ps == [1, 1] && ss == [Slice(1, 0), Slice(1, 0)];
    var one: seq<int> := [1];
    assert ps[..1] == one && one[..0] == [];
    assert SortedDistinct(one) == one;
    assert SortedDistinct(ps) == Insert(1, one) == one;
    var first := [Slice(1, 0)];
    assert ss[..1] == first && first[..0] == [];
    assert Unique(first) == first;
    assert Unique(ss) == first;
  }

  /** Doubled's group has two rows and 400 cents, all of them member 1's. */
  lemma DoubledSums()
    ensures SumAt(Doubled(), GroupOf, One, Group(1, Slice(1, 0))) == 2
    ensures SumAt(Doubled(), GroupOf, Spent, Group(1, Slice(1, 0))) == 400
    ensures SumAt(Doubled(), RowPerson, Spent, 1) == 400
  {
    var rows := Doubled();
    assert rows[..1] == [rows[0]];
    assert rows[..1][..0] == [];
  }

  /** Every cell is the mean of its group (0 for an empty group). */
  lemma PivotCells(rows: seq<SpendRow>, i: nat, j: nat)
    requires i < |PivotTable(rows).persons| && j < |PivotTable(rows).slices|
    ensures var g := Group(PivotTable(rows).persons[i], PivotTable(rows).slices[j]);
      var n := SumAt(rows, GroupOf, One, g);
      && (n == 0 <==> forall k :: 0 <= k < |rows| ==> GroupOf(rows[k]) != g)
      && (n == 0 ==> PivotTable(rows).cells[i][j] == 0.0)
      && (n > 0 ==> PivotTable(rows).cells[i][j] * (n as real) == SumAt(rows, GroupOf, Spent, g) as real)
  {
    var pv := PivotTable(rows);
    var g := Group(pv.persons[i], pv.slices[j]);
    if SumAt(rows, GroupOf, One, g) == 0 {
      CountZero(rows, GroupOf, g);
    }
    if forall k :: 0 <= k < |rows| ==> GroupOf(rows[k]) != g {
      SumAtAbsent(rows, GroupOf, One, g);
    }
  }
}

=== FILE: buckets.dfy ===
/** Keyed sums: the aggregation behind `resample(...).sum()`,
    `groupby(...).sum()` and `pivot_table`. Each element of a table has a key
    (its month, its (month, person) pair, ...) and a value; a bucket holds the
    sum of the values of the elements with its key. */
module Buckets {
  import opened Seqs

  /** Sum of value(x) over the elements x of xs whose key is k (0 when none is). */
  function SumAt<X, K(==)>(xs: seq<X>, key: X -> K, value: X -> int, k: K): int {
    if |xs| == 0 then 0
    else
      SumAt(xs[..|xs| - 1], key, value, k)
      + (if key(xs[|xs| - 1]) == k then value(xs[|xs| - 1]) else 0)
  }

  /** Sum of value(x) over the elements x of xs whose key is one of ks. */
  function SumIn<X, K(==)>(xs: seq<X>, key: X -> K, value: X -> int, ks: seq<K>): int {
    if |xs| == 0 then 0
    else
      SumIn(xs[..|xs| - 1], key, value, ks)
      + (if key(xs[|xs| - 1]) in ks then value(xs[|xs| - 1]) else 0)
  }

  /** Sum of value(x) over all elements. */
  function SumAll<X>(xs: seq<X>, value: X -> int): int {
    if |xs| == 0 then 0 else SumAll(xs[..|xs| - 1], value) + value(xs[|xs| - 1])
  }

  /** The value that makes a bucket a count (`count()`, `len`). */
  function One<X>(x: X): int {
    1
  }

  /** One bucket per key of ks, in the order of ks. */
  function PerKey<X, K(==)>(xs: seq<X>, key: X -> K, value: X -> int, ks: seq<K>): (r: seq<int>)
    ensures |r| == |ks|
    ensures forall i :: 0 <= i < |ks| ==> r[i] == SumAt(xs, key, value, ks[i])
  {
    if |ks| == 0 then [] else [SumAt(xs, key, value, ks[0])] + PerKey(xs, key, value, ks[1..])
  }

  /** A key that no element carries has an empty (zero) bucket. */
  lemma {:induction false} SumAtAbsent<X, K>(xs: seq<X>, key: X -> K, value: X -> int, k: K)
    requires forall i :: 0 <= i < |xs| ==> key(xs[i]) != k
    ensures SumAt(xs, key, value, k) == 0
  {
    if |xs| > 0 {
      SumAtAbsent(xs[..|xs| - 1], key, value, k);
    }
  }

  /** Adding a key that is not yet among ks adds exactly its own bucket. */
  lemma {:induction false} SumInCons<X, K>(xs: seq<X>, key: X -> K, value: X -> int, k: K, ks: seq<K>)
    requires k !in ks
    ensures SumIn(xs, key, value, [k] + ks) == SumAt(xs, key, value, k) + SumIn(xs, key, value, ks)
  {
    if |xs| > 0 {
      SumInCons(xs[..|xs| - 1], key, value, k, ks);
    }
  }

  /** Conservation: over distinct keys, the buckets add up to the total of
      the elements whose key is among them. */
  lemma {:induction false} PerKeyConservation<X, K>(xs: seq<X>, key: X -> K, value: X -> int, ks: seq<K>)
    requires Distinct(ks)
    ensures Sum(PerKey(xs, key, value, ks)) == SumIn(xs, key, value, ks)
  {
    if |ks| == 0 {
      SumInEmpty(xs, key, value, ks);
    } else {
      assert Distinct(ks[1..]);
      assert ks == [ks[0]] + ks[1..];
      PerKeyConservation(xs, key, value, ks[1..]);
      SumInCons(xs, key, value, ks[0], ks[1..]);
    }
  }

  lemma {:induction false} SumInEmpty<X, K>(xs: seq<X>, key: X -> K, value: X -> int, ks: seq<K>)
    requires |ks| == 0
    ensures SumIn(xs, key, value, ks) == 0
  {
    if |xs| > 0 {
      SumInEmpty(xs[..|xs| - 1], key, value, ks);
    }
  }

  /** When the keys ks select exactly the elements whose sel-key is p, the sum
      over ks equals p's bucket under sel (e.g. the months of one person's
      column add up to that person's total). */
  lemma {:induction false} SumInSelect<X, K, P>(xs: seq<X>, key: X -> K, sel: X -> P, value: X -> int, ks: seq<K>, p: P)
    requires forall i :: 0 <= i < |xs| ==> (key(xs[i]) in ks <==> sel(xs[i]) == p)
    ensures SumIn(xs, key, value, ks) == SumAt(xs, sel, value, p)
  {
    if |xs| > 0 {
      SumInSelect(xs[..|xs| - 1], key, sel, value, ks, p);
    }
  }

  /** When every element's key is among ks, the sum over ks is the grand total. */
  lemma {:induction false} SumInCovered<X, K>(xs: seq<X>, key: X -> K, value: X -> int, ks: seq<K>)
    requires forall i :: 0 <= i < |xs| ==> key(xs[i]) in ks
    ensures SumIn(xs, key, value, ks) == SumAll(xs, value)
  {
    if |xs| > 0 {
      SumInCovered(xs[..|xs| - 1], key, value, ks);
    }
  }

  /** A count of zero means no element carries the key. */
  lemma {:induction false} CountZero<X, K>(xs: seq<X>, key: X -> K, k: K)
    requires SumAt(xs, key, One, k) == 0
    ensures forall i :: 0 <= i < |xs| ==> key(xs[i]) != k
  {
    if |xs| > 0 {
      CountNonNegative(xs[..|xs| - 1], key, k);
      CountZero(xs[..|xs| - 1], key, k);
      assert forall i :: 0 <= i < |xs| - 1 ==> xs[..|xs| - 1][i] == xs[i];
    }
  }

  lemma {:induction false} CountNonNegative<X, K>(xs: seq<X>, key: X -> K, k: K)
    ensures SumAt(xs, key, One, k) >= 0
  {
    if |xs| > 0 {
      CountNonNegative(xs[..|xs| - 1], key, k);
    }
  }

  /** When no two elements share a key, every key counts at most once. */
  lemma {:induction false} CountAtMostOne<X, K>(xs: seq<X>, key: X -> K, k: K)
    requires forall i, j :: 0 <= i < j < |xs| ==> key(xs[i]) != key(xs[j])
    ensures SumAt(xs, key, One, k) <= 1
  {
    if |xs| > 0 {
      var init := xs[..|xs| - 1];
      CountAtMostOne(init, key, k);
      if key(xs[|xs| - 1]) == k {
        assert forall i :: 0 <= i < |init| ==> key(init[i]) != k;
        SumAtAbsent(init, key, One, k);
      }
    }
  }
}

=== FILE: calendar.dfy ===
/** Calendar dates and months, and the month stepping that pandas' 'MS'
    (month-start) frequency performs. */
module Calendar {

  /** A date as the database delivers it: not yet known to be a calendar date. */
  datatype Date = Date(year: int, month: int, day: int)

  /** A calendar month; FirstDay gives its month-start label. */
  datatype Month = Month(year: int, month: int)

  predicate LeapYear(y: int) {
    (y % 4 == 0 && y % 100 != 0) || y % 400 == 0
  }

  predicate ValidMonth(m: Month) {
    1 <= m.month <= 12
  }

  /** Number of days of a month of the proleptic Gregorian calendar. */
  function DaysIn(year: int, month: int): (n: int)
    requires 1 <= month <= 12
    ensures 28 <= n <= 31
  {
    if month == 2 then (if LeapYear(year) then 29 else 28)
    else if month == 4 || month == 6 || month == 9 || month == 11 then 30
    else 31
  }

  predicate ValidDate(d: Date) {
    1 <= d.month <= 12 && 1 <= d.day <= DaysIn(d.year, d.month)
  }

  /** Chronological order on dates (lexicographic on year, month, day). */
  predicate DateLe(a: Date, b: Date) {
    a.year < b.year
    || (a.year == b.year && (a.month < b.month || (a.month == b.month && a.day <= b.day)))
  }

  /** The month a date falls in. */
  function MonthOf(d: Date): Month {
    Month(d.year, d.month)
  }

  /** The month-start date that labels a month bucket. */
  function FirstDay(m: Month): Date {
    Date(m.year, m.month, 1)
  }

  /** Position of a month on a single counter: consecutive months differ by one. */
  function Index(m: Month): int {
    12 * m.year + m.month - 1
  }

  /** The calendar month after m (December rolls over to January). */
  function Next(m: Month): (n: Month)
    requires ValidMonth(m)
    ensures ValidMonth(n) && Index(n) == Index(m) + 1
  {
    if m.month == 12 then Month(m.year + 1, 1) else Month(m.year, m.month + 1)
  }

  /** The months from lo to hi inclusive, one calendar month per step;
      empty when hi lies before lo. */
  function MonthRange(lo: Month, hi: Month): (r: seq<Month>)
    requires ValidMonth(lo)
    ensures |r| == if Index(hi) < Index(lo) then 0 else Index(hi) - Index(lo) + 1
    ensures forall i :: 0 <= i < |r| ==> ValidMonth(r[i]) && Index(r[i]) == Index(lo) + i
    decreases Index(hi) - Index(lo)
  {
    if Index(hi) < Index(lo) then [] else [lo] + MonthRange(Next(lo), hi)
  }

  /** A sequence of months that steps by exactly one calendar month. */
  predicate Consecutive(ms: seq<Month>) {
    forall i :: 0 <= i < |ms| - 1 ==> ValidMonth(ms[i]) && ms[i + 1] == Next(ms[i])
  }

  /** A sequence of months in strictly increasing order. */
  predicate Increasing(ms: seq<Month>) {
    forall i, j :: 0 <= i < j < |ms| ==> Index(ms[i]) < Index(ms[j])
  }

  /** Two valid months with the same index are the same month. */
  lemma IndexInjective(a: Month, b: Month)
    requires ValidMonth(a) && ValidMonth(b)
    ensures Index(a) == Index(b) <==> a == b
  {
    if Index(a) == Index(b) {
      assert 12 * (a.year - b.year) == b.month - a.month;
    }
  }

  /** Months ordered by index are ordered by their month-start dates. */
  lemma IndexOrdersFirstDays(a: Month, b: Month)
    requires ValidMonth(a) && ValidMonth(b)
    ensures Index(a) <= Index(b) <==> DateLe(FirstDay(a), FirstDay(b))
  {
    if a.year < b.year {
      assert 12 * (b.year - a.year) >= 12;
    } else if a.year > b.year {
      assert 12 * (a.year - b.year) >= 12;
    }
  }

  /** Chronological order of dates is preserved by taking their months. */
  lemma MonthOfMonotone(a: Date, b: Date)
    requires ValidDate(a) && ValidDate(b) && DateLe(a, b)
    ensures Index(MonthOf(a)) <= Index(MonthOf(b))
  {
    if a.year < b.year {
      assert 12 * (b.year - a.year) >= 12;
    }
  }

  /** A month range steps by exactly one calendar month. */
  lemma MonthRangeConsecutive(lo: Month, hi: Month)
    requires ValidMonth(lo)
    ensures Consecutive(MonthRange(lo, hi))
  {
    var r := MonthRange(lo, hi);
    forall i | 0 <= i < |r| - 1
      ensures ValidMonth(r[i]) && r[i + 1] == Next(r[i])
    {
      IndexInjective(r[i + 1], Next(r[i]));
    }
  }

  /** A month range holds exactly the valid months between its bounds. */
  lemma MonthRangeMembers(lo: Month, hi: Month)
    requires ValidMonth(lo)
    ensures forall m :: m in MonthRange(lo, hi) <==> ValidMonth(m) && Index(lo) <= Index(m) <= Index(hi)
  {
    var r := MonthRange(lo, hi);
    forall m | ValidMonth(m) && Index(lo) <= Index(m) <= Index(hi)
      ensures m in r
    {
      var k := Index(m) - Index(lo);
      IndexInjective(r[k], m);
    }
  }

  /** A month range is contiguous, strictly increasing, and holds exactly
      the valid months between its bounds. */
  lemma MonthRangeShape(lo: Month, hi: Month)
    requires ValidMonth(lo)
    ensures Consecutive(MonthRange(lo, hi))
    ensures Increasing(MonthRange(lo, hi))
    ensures forall m :: m in MonthRange(lo, hi) <==> ValidMonth(m) && Index(lo) <= Index(m) <= Index(hi)
  {
    MonthRangeConsecutive(lo, hi);
    MonthRangeMembers(lo, hi);
  }
}

=== FILE: labels.dfy ===
/** Legend labels of the member chart (CostcoSpendingAnalysis.py:74-75): a
    line for column ('SoldPrice', k) is labelled "(SoldPrice, k)", and the
    label is turned back into the member's initials with
    `config.member_ids[int(label.split(', ')[1].strip(')'))]`. */
module Labels {
  import opened Results
  import opened Purchases
  import MemberPanel

  /** Why decoding a label raises: no second piece after splitting
      (IndexError), a piece `int` rejects (ValueError), an id missing from
      the directory (KeyError). */
  datatype LabelError = MissingSeparator | NotAnInteger(text: string) | UnknownMember(id: int)

  /** The member directory of config.py: PersonID to initials. */
  const MemberIds: map<int, string> := map[1 := "BF", 2 := "RM", 3 := "KR"]

  const Separator: string := ", "

  // ---------------------------------------------------------------------
  // str.split

  /** Python's `s.split(sep)`: the pieces between the leftmost
      non-overlapping occurrences of sep. */
  function Split(s: string, sep: string): (parts: seq<string>)
    requires |sep| > 0
    ensures |parts| >= 1
    decreases |s|
  {
    if |s| < |sep| then [s]
    else if s[..|sep|] == sep then [""] + Split(s[|sep|..], sep)
    else
      var rest := Split(s[1..], sep);
      [[s[0]] + rest[0]] + rest[1..]
  }

  /** Python's `sep.join(parts)`. */
  function Join(parts: seq<string>, sep: string): string
    requires |parts| >= 1
  {
    if |parts| == 1 then parts[0] else parts[0] + sep + Join(parts[1..], sep)
  }

  /** Prepending a character to the first piece prepends it to the join. */
  lemma JoinFirst(c: char, parts: seq<string>, sep: string)
    requires |parts| >= 1
    ensures Join([[c] + parts[0]] + parts[1..], sep) == [c] + Join(parts, sep)
  {
    var ps := [[c] + parts[0]] + parts[1..];
    assert ps[1..] == parts[1..];
  }

  /** Joining the pieces of a split with the separator gives back the string. */
  lemma {:induction false} SplitJoin(s: string, sep: string)
    requires |sep| > 0
    ensures Join(Split(s, sep), sep) == s
    decreases |s|
  {
    if |s| < |sep| {
    } else if s[..|sep|] == sep {
      var rest := Split(s[|sep|..], sep);
      SplitJoin(s[|sep|..], sep);
      assert Split(s, sep) == [""] + rest;
      assert ([""] + rest)[1..] == rest;
      assert s == sep + s[|sep|..];
    } else {
      var rest := Split(s[1..], sep);
      SplitJoin(s[1..], sep);
      assert Split(s, sep) == [[s[0]] + rest[0]] + rest[1..];
      JoinFirst(s[0], rest, sep);
      assert s == [s[0]] + s[1..];
    }
  }

  /** An occurrence of sep starts at position i of s. */
  predicate OccursAt(s: string, sep: string, i: nat) {
    i + |sep| <= |s| && s[i..i + |sep|] == sep
  }

  /** No occurrence of sep starts in the first k characters of s. */
  predicate FreeBefore(s: string, sep: string, k: nat) {
    forall i: nat :: i < k ==> !OccursAt(s, sep, i)
  }

  /** s does not contain sep. */
  predicate Free(s: string, sep: string) {
    FreeBefore(s, sep, |s|)
  }

  /** A string that does not contain sep splits into itself alone. */
  lemma {:induction false} SplitWithout(b: string, sep: string)
    requires |sep| > 0 && Free(b, sep)
    ensures Split(b, sep) == [b]
    decreases |b|
  {
    if |b| >= |sep| {
      assert !OccursAt(b, sep, 0);
      assert b[0..|sep|] == b[..|sep|];
      forall i: nat | i < |b[1..]|
        ensures !OccursAt(b[1..], sep, i)
      {
        assert !OccursAt(b, sep, i + 1);
        if i + |sep| <= |b[1..]| {
          assert b[1..][i..i + |sep|] == b[i + 1..i + 1 + |sep|];
        }
      }
      SplitWithout(b[1..], sep);
      assert [b[0]] + b[1..] == b;
    }
  }

  /** The first piece of a split ends at the first separator: when no
      occurrence of sep starts inside a, splitting a + sep + b gives a, then
      the pieces of b. */
  lemma {:induction false} SplitAfter(a: string, b: string, sep: string)
    requires |sep| > 0 && FreeBefore(a + sep + b, sep, |a|)
    ensures Split(a + sep + b, sep) == [a] + Split(b, sep)
    decreases |a|
  {
    var s := a + sep + b;
    if |a| == 0 {
      assert s[..|sep|] == sep;
      assert s[|sep|..] == b;
    } else {
      assert !OccursAt(s, sep, 0);
      assert s[0..|sep|] == s[..|sep|];
      assert s[1..] == a[1..] + sep + b;
      forall i: nat | i < |a[1..]|
        ensures !OccursAt(s[1..], sep, i)
      {
        assert !OccursAt(s, sep, i + 1);
        assert s[1..][i..i + |sep|] == s[i + 1..i + 1 + |sep|];
      }
      SplitAfter(a[1..], b, sep);
      assert [a[0]] + a[1..] == a;
    }
  }

  /** A string without a comma does not contain the separator ", ". */
  lemma NoCommaFree(s: string)
    requires forall i :: 0 <= i < |s| ==> s[i] != ','
    ensures Free(s, Separator)
  {
    forall i: nat | i < |s|
      ensures !OccursAt(s, Separator, i)
    {
      assert i + 2 <= |s| ==> s[i..i + 2][0] == s[i];
    }
  }

  // ---------------------------------------------------------------------
  // str.strip

  /** Python's `s.lstrip(c)` for one character c. */
  function StripLeft(s: string, c: char): (r: string)
    ensures |r| <= |s| && r == s[|s| - |r|..]
    ensures forall i :: 0 <= i < |s| - |r| ==> s[i] == c
    ensures |r| == 0 || r[0] != c
  {
    if |s| > 0 && s[0] == c then StripLeft(s[1..], c) else s
  }

  /** Python's `s.rstrip(c)` for one character c. */
  function StripRight(s: string, c: char): (r: string)
    ensures |r| <= |s| && r == s[..|r|]
    ensures forall i :: |r| <= i < |s| ==> s[i] == c
    ensures |r| == 0 || r[|r| - 1] != c
  {
    if |s| > 0 && s[|s| - 1] == c then StripRight(s[..|s| - 1], c) else s
  }

  /** Python's `s.strip(c)`: removes every leading and trailing c. */
  function Strip(s: string, c: char): (r: string)
    ensures |r| <= |s|
    ensures |r| == 0 || (r[0] != c && r[|r| - 1] != c)
  {
    StripRight(StripLeft(s, c), c)
  }

  // ---------------------------------------------------------------------
  // int() and str() on decimal integers

  predicate IsDigit(ch: char) {
    '0' <= ch <= '9'
  }

  predicate AllDigits(s: string) {
    forall i :: 0 <= i < |s| ==> IsDigit(s[i])
  }

  /** The value of a string of decimal digits. */
  function DigitsValue(s: string): nat
    requires AllDigits(s)
  {
    if |s| == 0 then 0
    else DigitsValue(s[..|s| - 1]) * 10 + (s[|s| - 1] as int - '0' as int)
  }

  /** A sign `int()` accepts in front of the digits: none, '+' or '-'. */
  predicate SignText(t: string) {
    t == "" || t == "+" || t == "-"
  }

  /** What `int()` accepts here: a sign followed by at least one ASCII digit. */
  predicate IntText(s: string) {
    exists n :: 0 <= n <= 1 && n < |s| && SignText(s[..n]) && AllDigits(s[n..])
  }

  /** n zero digits. */
  function Zeros(n: nat): (z: string)
    ensures |z| == n && AllDigits(z)
    ensures forall i :: 0 <= i < n ==> z[i] == '0'
  {
    seq(n, i => '0')
  }

  function Abs(v: int): nat {
    if v < 0 then -v else v
  }

  /** The sign t is a correct sign for the value v. */
  predicate SignFits(t: string, v: int) {
    (t == "-" && v <= 0) || ((t == "" || t == "+") && v >= 0)
  }

  /** s spells v: a sign that fits v, any number of leading zeros, then the
      decimal text of |v|. */
  ghost predicate Spells(s: string, v: int) {
    exists n, z: nat :: 0 <= n <= 1 && n <= |s| && SignFits(s[..n], v) && s[n..] == Zeros(z) + ShowNat(Abs(v))
  }

  /** Python's `int(s)`: None where it raises ValueError. */
  function ParseInt(s: string): (r: Option<int>)
    ensures r.Some? <==> IntText(s)
    ensures r.Some? ==> Spells(s, r.value)
  {
    var n := if |s| > 0 && (s[0] == '+' || s[0] == '-') then 1 else 0;
    if n < |s| && AllDigits(s[n..]) then
      var d := DigitsValue(s[n..]);
      var v := if n == 1 && s[0] == '-' then -(d as int) else d;
      assert s[..n] == "" || s[..n] == "+" || s[..n] == "-";
      assert Abs(v) == d;
      assert SignFits(s[..n], v);
      ParseSpells(s, n, v);
      Some(v)
    else
      assert !IntText(s) by {
        forall m | 0 <= m <= 1 && m < |s| && SignText(s[..m])
          ensures !AllDigits(s[m..])
        {
          if m == 0 && n == 1 {
            assert s[m..][0] == s[0];
          }
        }
      }
      None
  }

  /** Helper for ParseInt: digits after a fitting sign spell their value. */
  lemma ParseSpells(s: string, n: nat, v: int)
    requires n <= 1 && n < |s| && AllDigits(s[n..]) && SignFits(s[..n], v)
    requires Abs(v) == DigitsValue(s[n..])
    ensures Spells(s, v)
  {
    var ds := s[n..];
    DigitsSpelled(ds);
    var z := |ds| - |ShowNat(Abs(v))|;
    assert s[n..] == Zeros(z) + ShowNat(Abs(v));
  }

  /** Leading zeros do not change the value of a digit string. */
  lemma {:induction false} LeadingZeros(n: nat, t: string)
    requires AllDigits(t)
    ensures DigitsValue(Zeros(n) + t) == DigitsValue(t)
    decreases |t|
  {
    var s := Zeros(n) + t;
    if |t| == 0 {
      ZerosValue(n);
      assert s == Zeros(n);
    } else {
      assert s[..|s| - 1] == Zeros(n) + t[..|t| - 1];
      LeadingZeros(n, t[..|t| - 1]);
    }
  }

  lemma {:induction false} ZerosValue(n: nat)
    ensures DigitsValue(Zeros(n)) == 0
  {
    if n > 0 {
      assert Zeros(n)[..n - 1] == Zeros(n - 1);
      ZerosValue(n - 1);
    }
  }

  /** The value of a one-digit string is that digit. */
  lemma OneDigit(ds: string)
    requires |ds| == 1 && AllDigits(ds)
    ensures DigitsValue(ds) == ds[0] as int - '0' as int
    ensures ShowNat(DigitsValue(ds)) == ds
  {
    assert ds[..0] == [];
    var d := ds[0] as int - '0' as int;
    assert DigitChar(d) == ds[0];
  }

  /** A digit string without a leading zero is the decimal text of its value. */
  lemma {:induction false} CanonicalDigits(ds: string)
    requires |ds| >= 1 && AllDigits(ds) && ds[0] != '0'
    ensures ShowNat(DigitsValue(ds)) == ds
    decreases |ds|
  {
    if |ds| == 1 {
      OneDigit(ds);
    } else {
      var v := DigitsValue(ds);
      var p := ds[..|ds| - 1];
      var last := ds[|ds| - 1];
      CanonicalDigits(p);
      assert DigitsValue(p) != 0;
      var d := last as int - '0' as int;
      assert v == DigitsValue(p) * 10 + d;
      assert v / 10 == DigitsValue(p) && v % 10 == d;
      assert DigitChar(d) == last;
      assert ShowNat(v) == ShowNat(v / 10) + [DigitChar(v % 10)];
      assert ds == p + [last];
    }
  }

  /** Every non-empty digit string is leading zeros followed by the decimal
      text of its value. */
  lemma {:induction false} DigitsSpelled(ds: string)
    requires |ds| >= 1 && AllDigits(ds)
    ensures |ShowNat(DigitsValue(ds))| <= |ds|
    ensures ds == Zeros(|ds| - |ShowNat(DigitsValue(ds))|) + ShowNat(DigitsValue(ds))
    decreases |ds|
  {
    var v := DigitsValue(ds);
    if ds[0] != '0' {
      CanonicalDigits(ds);
      assert ds == Zeros(0) + ds;
    } else if |ds| == 1 {
      OneDigit(ds);
      assert ds == Zeros(0) + ds;
    } else {
      var t := ds[1..];
      DigitsSpelled(t);
      var w := ShowNat(DigitsValue(t));
      assert ds == Zeros(1) + t;
      LeadingZeros(1, t);
      assert v == DigitsValue(t);
      assert ds == Zeros(1) + (Zeros(|t| - |w|) + w);
      assert Zeros(1) + Zeros(|t| - |w|) == Zeros(|ds| - |w|);
    }
  }

  /** The converse of what ParseInt promises: every spelling of v parses to
      v, so `int(s) == v` exactly when s spells v. */
  lemma SpelledParses(s: string, v: int)
    requires Spells(s, v)
    ensures ParseInt(s) == Some(v)
  {
    var n, z: nat :| 0 <= n <= 1 && n <= |s| && SignFits(s[..n], v) && s[n..] == Zeros(z) + ShowNat(Abs(v));
    ParseSpelling(s, n, z, v);
  }

  lemma ParseSpelling(s: string, n: nat, z: nat, v: int)
    requires n <= 1 && n <= |s| && SignFits(s[..n], v) && s[n..] == Zeros(z) + ShowNat(Abs(v))
    ensures ParseInt(s) == Some(v)
  {
    var ds := s[n..];
    LeadingZeros(z, ShowNat(Abs(v)));
    DigitsShow(Abs(v));
    assert DigitsValue(ds) == Abs(v);
    assert |ds| >= 1 && IsDigit(ds[0]);
    if n == 1 {
      assert s[0] == s[..n][0];
      assert s[0] == '+' || s[0] == '-';
    } else {
      assert s[0] == ds[0];
    }
    assert n < |s| && AllDigits(s[n..]);
  }

  /** The digit character for d. */
  function DigitChar(d: nat): (ch: char)
    requires d < 10
    ensures IsDigit(ch)
  {
    ('0' as int + d) as char
  }

  /** Python's `str(n)` for n >= 0: decimal digits without leading zeros. */
  function ShowNat(n: nat): (s: string)
    ensures |s| >= 1 && AllDigits(s)
  {
    if n < 10 then [DigitChar(n)] else ShowNat(n / 10) + [DigitChar(n % 10)]
  }

  /** Python's `str(k)`. */
  function ShowInt(k: int): string {
    if k < 0 then "-" + ShowNat(-k) else ShowNat(k)
  }

  /** Reading back the digits of n gives n. */
  lemma {:induction false} DigitsShow(n: nat)
    ensures DigitsValue(ShowNat(n)) == n
  {
    var s := ShowNat(n);
    if n >= 10 {
      DigitsShow(n / 10);
      assert s[..|s| - 1] == ShowNat(n / 10);
    }
  }

  /** `int(str(k)) == k`. */
  lemma ParseShow(k: int)
    ensures ParseInt(ShowInt(k)) == Some(k)
  {
    var s := ShowInt(k);
    var n := if k < 0 then 1 else 0;
    assert s[n..] == Zeros(0) + ShowNat(Abs(k));
    assert SignFits(s[..n], k);
    SpelledParses(s, k);
  }

  // ---------------------------------------------------------------------
  // Legend labels

  /** How the line of column (column, k) is labelled in the legend. */
  function ColumnLabel(column: string, k: int): string {
    "(" + column + Separator + ShowInt(k) + ")"
  }

  /** `ids[int(label.split(', ')[1].strip(')'))]`, with its three ways to raise. */
  function DecodeLabel(legend: string, ids: map<int, string>): (r: Result<string, LabelError>)
    ensures r.Success? ==> r.value in ids.Values
  {
    var parts := Split(legend, Separator);
    if |parts| < 2 then Failure(MissingSeparator)
    else
      var text := Strip(parts[1], ')');
      match ParseInt(text)
      case None => Failure(NotAnInteger(text))
      case Some(k) => if k in ids then Success(ids[k]) else Failure(UnknownMember(k))
  }

  /** The text of `str(k)` contains neither ',' nor ')'. */
  lemma ShowIntChars(k: int)
    ensures forall i :: 0 <= i < |ShowInt(k)| ==> ShowInt(k)[i] != ',' && ShowInt(k)[i] != ')'
    ensures ShowInt(k)[0] != ')' && ShowInt(k)[|ShowInt(k)| - 1] != ')'
  {
    if k < 0 {
      assert forall i :: 1 <= i < |ShowInt(k)| ==> ShowInt(k)[i] == ShowNat(-k)[i - 1];
    }
  }

  /** Stripping ')' from "str(k))" leaves str(k). */
  lemma StripShow(k: int)
    ensures Strip(ShowInt(k) + ")", ')') == ShowInt(k)
  {
    var t := ShowInt(k);
    var b := t + ")";
    ShowIntChars(k);
    var l := StripLeft(b, ')');
    assert l == b;
    var r := StripRight(b, ')');
    assert |r| < |b|;
    assert r == b[..|t|] == t;
  }

  /** No separator starts inside "(" + column when column does not contain
      one: '(' is not a comma, and a comma ending the column is followed by
      the separator's comma, not a space. */
  lemma OpenParenFree(column: string, b: string)
    requires Free(column, Separator)
    ensures FreeBefore("(" + column + Separator + b, Separator, |column| + 1)
  {
    var a := "(" + column;
    var s := a + Separator + b;
    assert "(" + column + Separator + b == s;
    forall i: nat | i < |a|
      ensures !OccursAt(s, Separator, i)
    {
      if i == 0 {
        assert s[0] == '(';
      } else if i + 2 <= |a| {
        assert !OccursAt(column, Separator, i - 1);
        assert s[i..i + 2] == column[i - 1..i + 1];
      } else {
        assert s[i + 1] == ',';
      }
      assert s[i..i + 2][0] == s[i] && s[i..i + 2][1] == s[i + 1];
    }
  }

  /** The legend label of column (column, k) splits into "(" + column and
      str(k) + ")". */
  lemma LabelSplits(column: string, k: int)
    requires Free(column, Separator)
    ensures Split(ColumnLabel(column, k), Separator) == ["(" + column, ShowInt(k) + ")"]
  {
    var a := "(" + column;
    var b := ShowInt(k) + ")";
    assert ColumnLabel(column, k) == a + Separator + b;
    OpenParenFree(column, b);
    SplitAfter(a, b, Separator);
    ShowIntChars(k);
    assert forall i :: 0 <= i < |b| ==> b[i] != ',';
    NoCommaFree(b);
    SplitWithout(b, Separator);
  }

  /** Round trip: the legend label of column (column, k) decodes to member
      k's initials when k is in the directory, and raises KeyError otherwise,
      for any column name that does not contain ", ". */
  lemma {:induction false} LabelRoundTrip(column: string, k: int, ids: map<int, string>)
    requires Free(column, Separator)
    ensures DecodeLabel(ColumnLabel(column, k), ids)
      == if k in ids then Success(ids[k]) else Failure(UnknownMember(k))
  {
    LabelSplits(column, k);
    StripShow(k);
    ParseShow(k);
  }

  /** A label that does not contain ", " has no second piece, and decoding
      raises IndexError. */
  lemma NoSeparatorFails(legend: string, ids: map<int, string>)
    requires Free(legend, Separator)
    ensures DecodeLabel(legend, ids) == Failure(MissingSeparator)
  {
    SplitWithout(legend, Separator);
  }

  /** Decoding is defined exactly for the PersonIDs 1, 2 and 3 of the
      directory: they decode to BF, RM and KR, any other id raises KeyError. */
  lemma MemberLabels(k: int)
    ensures DecodeLabel(ColumnLabel("SoldPrice", k), MemberIds).Success? <==> k in {1, 2, 3}
    ensures k == 1 ==> DecodeLabel(ColumnLabel("SoldPrice", k), MemberIds) == Success("BF")
    ensures k == 2 ==> DecodeLabel(ColumnLabel("SoldPrice", k), MemberIds) == Success("RM")
    ensures k == 3 ==> DecodeLabel(ColumnLabel("SoldPrice", k), MemberIds) == Success("KR")
  {
    NoCommaFree("SoldPrice");
    LabelRoundTrip("SoldPrice", k, MemberIds);
  }

  /** When every PersonID of the member query is 1, 2 or 3 (its
      `PersonID IN (1, 2, 3)` filter), every column of the member panel has a
      legend label that decodes to that member's initials. */
  lemma PanelLabelsDecode(rs: seq<Record>, ds: seq<Calendar.Month>)
    requires PersonSet(rs) <= {1, 2, 3}
    ensures forall j :: 0 <= j < |MemberPanel.BuildPanel(rs, ds).cols| ==>
      var k := MemberPanel.BuildPanel(rs, ds).cols[j];
      k in MemberIds && DecodeLabel(ColumnLabel("SoldPrice", k), MemberIds) == Success(MemberIds[k])
  {
    var cols := MemberPanel.BuildPanel(rs, ds).cols;
    MemberPanel.ColumnsPresent(rs, ds);
    forall j | 0 <= j < |cols|
      ensures cols[j] in MemberIds && DecodeLabel(ColumnLabel("SoldPrice", cols[j]), MemberIds) == Success(MemberIds[cols[j]])
    {
      assert cols[j] in cols;
      MemberLabels(cols[j]);
    }
  }
}

=== FILE: member_panel.dfy ===
/** The per-member monthly panel (CostcoSpendingAnalysis.py:46-57): sums per
    (month, PersonID), a month-start date range, the cross product of that
    range with the distinct PersonIDs, a zero-filling reindex, and an unstack
    into one column per member. */
module MemberPanel {
  import opened Results
  import opened Calendar
  import opened Seqs
  import opened Buckets
  import opened Purchases
  import Resample

  /** A (month-start, PersonID) index entry. */
  datatype Key = Key(month: Month, person: int)

  /** One row of the reindexed table. */
  datatype Entry = Entry(key: Key, value: int)

  /** The unstacked panel: cells[i][j] is the spending of member cols[j] in
      month rows[i]. */
  datatype Table = Table(rows: seq<Month>, cols: seq<int>, cells: seq<seq<int>>)

  /** Why building the panel raises: `pd.to_datetime` rejects a date
      (line 46), or an edge of the 'MS' bins of `pd.Grouper` lies outside
      the timestamp range (line 48), or `pd.date_range` gets the NaT bounds
      of an empty table (line 51). */
  datatype PanelError = BadDate(cause: DateError) | BinOutOfBounds | EmptyFrame

  /** The group a record falls in. */
  function PanelKey(r: Record): Key {
    Key(MonthOf(r.date), r.person)
  }

  /** `groupby([pd.Grouper(freq="MS"), 'PersonID']).sum()`: one sum per
      (month, person) pair that occurs in the data. */
  function GroupSum(rs: seq<Record>): (g: map<Key, int>)
    ensures forall i :: 0 <= i < |rs| ==> PanelKey(rs[i]) in g
    ensures forall k :: k in g ==> g[k] == SumAt(rs, PanelKey, Amount, k)
  {
    if |rs| == 0 then map[]
    else
      var init := rs[..|rs| - 1];
      var g' := GroupSum(init);
      var k := PanelKey(rs[|rs| - 1]);
      assert forall i :: 0 <= i < |rs| - 1 ==> init[i] == rs[i];
      if k in g' then g'[k := g'[k] + rs[|rs| - 1].amount]
      else
        SumAtAbsent(init, PanelKey, Amount, k);
        g'[k := rs[|rs| - 1].amount]
  }

  /** The first month-start on or after the date lo: the start of
      `pd.date_range(start=lo, freq='MS')`. */
  function FirstMonthStart(lo: Date): (m: Month)
    requires ValidDate(lo)
    ensures ValidMonth(m)
  {
    if lo.day == 1 then MonthOf(lo) else Next(MonthOf(lo))
  }

  /** `pd.date_range(start=lo, end=hi, freq='MS')`. */
  function AllDates(lo: Date, hi: Date): seq<Month>
    requires ValidDate(lo)
  {
    MonthRange(FirstMonthStart(lo), MonthOf(hi))
  }

  /** The distinct PersonIDs in order of first appearance (`unique()`). */
  function Persons(rs: seq<Record>): (ps: seq<int>)
    ensures Distinct(ps)
    ensures forall p :: p in ps <==> p in PersonSet(rs)
  {
    var all := Pick(rs, PersonKey);
    Unique(all)
  }

  /** `pd.MultiIndex.from_product([ds, ps])`: months outermost. */
  function Product(ds: seq<Month>, ps: seq<int>): seq<Key> {
    if |ds| == 0 then []
    else seq(|ps|, j requires 0 <= j < |ps| => Key(ds[0], ps[j])) + Product(ds[1..], ps)
  }

  /** The product holds exactly the pairs of a month of ds and a person of
      ps, each once when ds and ps have no duplicates. */
  lemma {:induction false} ProductMembers(ds: seq<Month>, ps: seq<int>)
    ensures forall k :: k in Product(ds, ps) <==> k.month in ds && k.person in ps
    ensures Distinct(ds) && Distinct(ps) ==> Distinct(Product(ds, ps))
  {
    if |ds| > 0 {
      var row := seq(|ps|, j requires 0 <= j < |ps| => Key(ds[0], ps[j]));
      var rest := Product(ds[1..], ps);
      ProductMembers(ds[1..], ps);
      assert Product(ds, ps) == row + rest;
      forall k: Key | k.month == ds[0] && k.person in ps
        ensures k in row
      {
        var j :| 0 <= j < |ps| && ps[j] == k.person;
        assert row[j] == k;
      }
      assert forall m :: m in ds <==> m == ds[0] || m in ds[1..];
      if Distinct(ds) && Distinct(ps) {
        assert Distinct(ds[1..]);
        assert forall k :: k in rest ==> k.month != ds[0];
      }
    }
  }

  /** `reindex(idx, fill_value=0)`: one entry per index key, the group sum
      where the key has a group and 0 where it does not. */
  function Reindex(g: map<Key, int>, idx: seq<Key>): seq<Entry> {
    seq(|idx|, i requires 0 <= i < |idx| => Entry(idx[i], if idx[i] in g then g[idx[i]] else 0))
  }

  /** The value of the first entry with key k (0 when there is none). */
  function Lookup(es: seq<Entry>, k: Key): int {
    if |es| == 0 then 0 else if es[0].key == k then es[0].value else Lookup(es[1..], k)
  }

  /** `unstack('PersonID')`: months as rows, the sorted PersonIDs as columns.
      pandas first drops unused index levels, so an empty index (no months)
      leaves no PersonID either, and the result has no columns. */
  function Unstack(es: seq<Entry>, ds: seq<Month>, ps: seq<int>): (t: Table)
    ensures t.rows == ds && |t.cells| == |ds|
    ensures forall i :: 0 <= i < |ds| ==> |t.cells[i]| == |t.cols|
    ensures |ds| == 0 ==> t.cols == []
  {
    var cols := if |ds| == 0 then [] else SortedDistinct(ps);
    Table(ds, cols,
      seq(|ds|, i requires 0 <= i < |ds| =>
        seq(|cols|, j requires 0 <= j < |cols| => Lookup(es, Key(ds[i], cols[j])))))
  }

  /** The member level of the panel's columns when it has months: the
      present PersonIDs in ascending order. */
  function Members(rs: seq<Record>): (ms: seq<int>)
    ensures StrictlyIncreasing(ms)
    ensures forall p :: p in ms <==> p in PersonSet(rs)
  {
    SortedDistinct(Persons(rs))
  }

  /** A table without rows has no members. */
  lemma MembersNonEmpty(rs: seq<Record>)
    ensures |Members(rs)| > 0 ==> |rs| > 0
  {
    if |rs| == 0 {
      assert Persons(rs) == [];
    }
  }

  /** The reindexed (month, person) entries for a month axis ds. */
  function Reindexed(rs: seq<Record>, ds: seq<Month>): seq<Entry> {
    Reindex(GroupSum(rs), Product(ds, Persons(rs)))
  }

  /** Grouping, cross product, reindex and unstack over a given month axis. */
  function BuildPanel(rs: seq<Record>, ds: seq<Month>): Table {
    Unstack(Reindexed(rs, ds), ds, Persons(rs))
  }

  /** The panel as CostcoSpendingAnalysis.py:46-57 builds it. */
  function Panel(rs: seq<Record>): Result<Table, PanelError>
    requires AllValid(rs)
  {
    if !BinEdgesInRange(rs) then Failure(BinOutOfBounds)
    else if |rs| == 0 then Failure(EmptyFrame)
    else Success(BuildPanel(rs, AllDates(MinDate(rs), MaxDate(rs))))
  }

  /** Lines 46-57 from the raw member rows: convert the dates, then build
      the panel. Either a date is rejected, with the same error as
      `process_data`, or an 'MS' bin edge of the grouping is out of range,
      or the table is empty and `date_range` raises, or the
      panel has one row per month-start between the earliest and the latest
      date, and, when there is at least one such month, one column per
      member in ascending order; without months there are no columns. */
  function MemberPanelOf(rows: seq<Record>): (r: Result<Table, PanelError>)
    ensures ProcessData(rows).Failure? ==> r == Failure(BadDate(ProcessData(rows).error))
    ensures ProcessData(rows).Success? && !BinEdgesInRange(rows) ==> r == Failure(BinOutOfBounds)
    ensures ProcessData(rows).Success? && |rows| == 0 ==> r == Failure(EmptyFrame)
    ensures r.Success? <==> ProcessData(rows).Success? && BinEdgesInRange(rows) && |rows| > 0
    ensures r.Success? ==>
      && r.value.rows == AllDates(MinDate(rows), MaxDate(rows))
      && StrictlyIncreasing(r.value.cols)
      && (|r.value.rows| == 0 ==> r.value.cols == [])
      && (|r.value.rows| > 0 ==> forall p :: p in r.value.cols <==> p in PersonSet(rows))
  {
    match ProcessData(rows)
    case Failure(e) => Failure(BadDate(e))
    case Success(rs) =>
      if !BinEdgesInRange(rs) then Failure(BinOutOfBounds)
      else if |rs| == 0 then Failure(EmptyFrame)
      else
        var ds := AllDates(MinDate(rs), MaxDate(rs));
        MonthRangeMembers(FirstMonthStart(MinDate(rs)), MonthOf(MaxDate(rs)));
        assert Distinct(ds);
        PanelCells(rs, ds);
        Panel(rs)
  }

  /** The panel with the month range the comment at line 50 describes: every
      month from the earliest record's month to the latest's, the same axis as
      the monthly resample. */
  function FixedPanel(rs: seq<Record>): Table
    requires AllValid(rs)
  {
    BuildPanel(rs, Resample.Axis(rs))
  }

  /** Column j of a table, top to bottom. */
  function Column(t: Table, j: nat): seq<int>
    requires forall i :: 0 <= i < |t.cells| ==> j < |t.cells[i]|
  {
    seq(|t.cells|, i requires 0 <= i < |t.cells| => t.cells[i][j])
  }

  /** The index keys of member p's column. */
  function KeysOf(ds: seq<Month>, p: int): (ks: seq<Key>)
    ensures Distinct(ds) ==> Distinct(ks)
    ensures forall k :: k in ks ==> k.month in ds && k.person == p
  {
    seq(|ds|, i requires 0 <= i < |ds| => Key(ds[i], p))
  }

  lemma KeysOfMembers(ds: seq<Month>, p: int)
    ensures forall m :: m in ds ==> Key(m, p) in KeysOf(ds, p)
  {
    forall m | m in ds
      ensures Key(m, p) in KeysOf(ds, p)
    {
      var i :| 0 <= i < |ds| && ds[i] == m;
      assert KeysOf(ds, p)[i] == Key(m, p);
    }
  }

  // ---------------------------------------------------------------------
  // The month range

  /** `date_range(lo, hi, freq='MS')` holds exactly the month-starts between
      lo and hi, in increasing order, one calendar month apart. */
  lemma AllDatesMembers(lo: Date, hi: Date)
    requires ValidDate(lo) && ValidDate(hi)
    ensures Consecutive(AllDates(lo, hi)) && Increasing(AllDates(lo, hi))
    ensures forall m :: m in AllDates(lo, hi) <==>
      ValidMonth(m) && DateLe(lo, FirstDay(m)) && DateLe(FirstDay(m), hi)
  {
    var start := FirstMonthStart(lo);
    MonthRangeShape(start, MonthOf(hi));
    forall m | ValidMonth(m)
      ensures Index(start) <= Index(m) <==> DateLe(lo, FirstDay(m))
      ensures Index(m) <= Index(MonthOf(hi)) <==> DateLe(FirstDay(m), hi)
    {
      IndexOrdersFirstDays(MonthOf(lo), m);
      IndexOrdersFirstDays(m, MonthOf(hi));
      IndexInjective(MonthOf(lo), m);
    }
  }

  /** When the earliest transaction is on day 1 of its month, the range
      contains the month of every transaction. */
  lemma AllMonthsIncludedOnDayOne(rs: seq<Record>)
    requires AllValid(rs) && |rs| > 0 && MinDate(rs).day == 1
    ensures forall i :: 0 <= i < |rs| ==> MonthKey(rs[i]) in AllDates(MinDate(rs), MaxDate(rs))
  {
    MonthsWithinSpan(rs);
    MonthRangeMembers(MonthOf(MinDate(rs)), MonthOf(MaxDate(rs)));
  }

  /** When the earliest transaction is not on day 1, its month is missing
      from the range. */
  lemma EarliestMonthMissing(rs: seq<Record>)
    requires AllValid(rs) && |rs| > 0 && MinDate(rs).day != 1
    ensures MonthOf(MinDate(rs)) !in AllDates(MinDate(rs), MaxDate(rs))
  {
    var lo := MinDate(rs);
    MonthRangeMembers(FirstMonthStart(lo), MonthOf(MaxDate(rs)));
  }

  /** The month-start range of the data holds the month of every transaction. */
  predicate IncludesAllMonths(rs: seq<Record>)
    requires AllValid(rs) && |rs| > 0
  {
    forall i :: 0 <= i < |rs| ==> MonthKey(rs[i]) in AllDates(MinDate(rs), MaxDate(rs))
  }

  /** The range "includes all months" of the data exactly when the earliest
      transaction falls on the first day of its month. */
  lemma AllMonthsIncluded(rs: seq<Record>)
    requires AllValid(rs) && |rs| > 0
    ensures IncludesAllMonths(rs) <==> MinDate(rs).day == 1
  {
    if MinDate(rs).day == 1 {
      AllMonthsIncludedOnDayOne(rs);
    } else {
      EarliestMonthMissing(rs);
      var i :| 0 <= i < |rs| && rs[i].date == MinDate(rs);
      assert MonthKey(rs[i]) !in AllDates(MinDate(rs), MaxDate(rs));
    }
  }

  // ---------------------------------------------------------------------
  // Reindex and unstack

  /** After reindexing, every (month, person) pair of ds x persons has exactly
      one entry; the entry holds that person's spending in that month, which
      is 0 when there is none; no other pair, and so no person absent from the
      data, appears. */
  lemma ReindexComplete(rs: seq<Record>, ds: seq<Month>)
    requires Distinct(ds)
    ensures forall i :: 0 <= i < |Reindexed(rs, ds)| ==>
      Reindexed(rs, ds)[i].key.month in ds && Reindexed(rs, ds)[i].key.person in Persons(rs)
    ensures forall m, p :: m in ds && p in Persons(rs) ==>
      exists i :: 0 <= i < |Reindexed(rs, ds)| && Reindexed(rs, ds)[i].key == Key(m, p)
    ensures forall i, j ::
      (0 <= i < |Reindexed(rs, ds)| && 0 <= j < |Reindexed(rs, ds)| &&
       Reindexed(rs, ds)[i].key == Reindexed(rs, ds)[j].key) ==> i == j
    ensures forall i :: 0 <= i < |Reindexed(rs, ds)| ==>
      Reindexed(rs, ds)[i].value == SumAt(rs, PanelKey, Amount, Reindexed(rs, ds)[i].key)
  {
    var g := GroupSum(rs);
    var idx := Product(ds, Persons(rs));
    var es := Reindexed(rs, ds);
    ProductMembers(ds, Persons(rs));
    assert forall i :: 0 <= i < |es| ==> es[i].key == idx[i];
    forall m, p | m in ds && p in Persons(rs)
      ensures exists i :: 0 <= i < |es| && es[i].key == Key(m, p)
    {
      assert Key(m, p) in idx;
      var i :| 0 <= i < |idx| && idx[i] == Key(m, p);
      assert es[i].key == Key(m, p);
    }
    forall i | 0 <= i < |es|
      ensures es[i].value == SumAt(rs, PanelKey, Amount, es[i].key)
    {
      if idx[i] !in g {
        SumAtAbsent(rs, PanelKey, Amount, idx[i]);
      }
    }
  }

  /** Lookup returns the entry with the key when keys are distinct. */
  lemma {:induction false} LookupFinds(es: seq<Entry>, k: Key, i: nat)
    requires i < |es| && es[i].key == k
    requires forall j :: 0 <= j < i ==> es[j].key != k
    ensures Lookup(es, k) == es[i].value
  {
    if i > 0 {
      LookupFinds(es[1..], k, i - 1);
    }
  }

  /** Lookup in the reindexed entries finds the entry for a pair of a range
      month and a present member. */
  lemma ReindexedLookup(rs: seq<Record>, ds: seq<Month>, m: Month, p: int)
    requires Distinct(ds) && m in ds && p in Persons(rs)
    ensures exists n ::
      && 0 <= n < |Reindexed(rs, ds)|
      && Reindexed(rs, ds)[n].key == Key(m, p)
      && Lookup(Reindexed(rs, ds), Key(m, p)) == Reindexed(rs, ds)[n].value
      && Reindexed(rs, ds)[n].value == SumAt(rs, PanelKey, Amount, Key(m, p))
  {
    var es := Reindexed(rs, ds);
    var k := Key(m, p);
    ReindexComplete(rs, ds);
    var n :| 0 <= n < |es| && es[n].key == k;
    LookupFinds(es, k, n);
  }

  /** One cell of the unstacked panel is the one reindexed entry for its
      (month, member) pair. */
  lemma PanelCell(rs: seq<Record>, ds: seq<Month>, i: nat, j: nat)
    requires Distinct(ds) && i < |ds| && j < |BuildPanel(rs, ds).cols|
    ensures var k := Key(ds[i], BuildPanel(rs, ds).cols[j]);
      && BuildPanel(rs, ds).cells[i][j] == SumAt(rs, PanelKey, Amount, k)
      && exists e :: e in Reindexed(rs, ds) && e.key == k && e.value == BuildPanel(rs, ds).cells[i][j]
  {
    var es := Reindexed(rs, ds);
    var t := BuildPanel(rs, ds);
    var cols := SortedDistinct(Persons(rs));
    assert t.cols == cols;
    var k := Key(ds[i], cols[j]);
    assert cols[j] in Persons(rs);
    ReindexedLookup(rs, ds, ds[i], cols[j]);
    var n :| 0 <= n < |es| && es[n].key == k && Lookup(es, k) == es[n].value
      && es[n].value == SumAt(rs, PanelKey, Amount, k);
    assert t.cells[i][j] == Lookup(es, k);
    assert es[n] in es;
  }

  /** The unstacked panel has one row per month of ds, one column per
      distinct member in ascending order (none when ds is empty), and each cell is the one reindexed
      entry for its (month, member) pair: the member's spending that month
      (0 when the member bought nothing that month). */
  lemma PanelCells(rs: seq<Record>, ds: seq<Month>)
    requires Distinct(ds)
    ensures BuildPanel(rs, ds).rows == ds
    ensures StrictlyIncreasing(BuildPanel(rs, ds).cols)
    ensures |ds| == 0 ==> BuildPanel(rs, ds).cols == []
    ensures |ds| > 0 ==> forall p :: p in BuildPanel(rs, ds).cols <==> p in PersonSet(rs)
    ensures forall i, j :: 0 <= i < |ds| && 0 <= j < |BuildPanel(rs, ds).cols| ==>
      && BuildPanel(rs, ds).cells[i][j] == SumAt(rs, PanelKey, Amount, Key(ds[i], BuildPanel(rs, ds).cols[j]))
      && exists e :: e in Reindexed(rs, ds) && e.key == Key(ds[i], BuildPanel(rs, ds).cols[j])
           && e.value == BuildPanel(rs, ds).cells[i][j]
  {
    var t := BuildPanel(rs, ds);
    forall i, j | 0 <= i < |ds| && 0 <= j < |t.cols|
      ensures t.cells[i][j] == SumAt(rs, PanelKey, Amount, Key(ds[i], t.cols[j]))
      ensures exists e :: e in Reindexed(rs, ds) && e.key == Key(ds[i], t.cols[j]) && e.value == t.cells[i][j]
    {
      PanelCell(rs, ds, i, j);
    }
  }

  /** Every column of the panel is a PersonID of the data. */
  lemma ColumnsPresent(rs: seq<Record>, ds: seq<Month>)
    ensures forall p :: p in BuildPanel(rs, ds).cols ==> p in PersonSet(rs)
  {
  }

  /** A member's column adds up to that member's spending in the months of ds. */
  lemma ColumnTotal(rs: seq<Record>, ds: seq<Month>, j: nat)
    requires Distinct(ds) && j < |BuildPanel(rs, ds).cols|
    ensures Sum(Column(BuildPanel(rs, ds), j)) == SumIn(rs, PanelKey, Amount, KeysOf(ds, BuildPanel(rs, ds).cols[j]))
  {
    var t := BuildPanel(rs, ds);
    var ks := KeysOf(ds, t.cols[j]);
    PanelCells(rs, ds);
    assert Column(t, j) == PerKey(rs, PanelKey, Amount, ks);
    PerKeyConservation(rs, PanelKey, Amount, ks);
  }

  // ---------------------------------------------------------------------
  // Conservation per member

  /** When every record's month is in ds or is the one month m0 outside ds,
      member p's spending over ds is p's total less p's spending in m0. */
  lemma SumMissingOneMonth(rs: seq<Record>, ds: seq<Month>, m0: Month, p: int)
    requires Distinct(ds) && m0 !in ds
    requires forall i :: 0 <= i < |rs| ==> MonthKey(rs[i]) == m0 || MonthKey(rs[i]) in ds
    ensures SumIn(rs, PanelKey, Amount, KeysOf(ds, p))
      == SumAt(rs, PersonKey, Amount, p) - SumAt(rs, PanelKey, Amount, Key(m0, p))
  {
    var ks := KeysOf(ds, p);
    KeysOfMembers(ds, p);
    assert Key(m0, p) !in ks;
    forall i | 0 <= i < |rs|
      ensures PanelKey(rs[i]) in [Key(m0, p)] + ks <==> PersonKey(rs[i]) == p
    {
    }
    SumInSelect(rs, PanelKey, PersonKey, Amount, [Key(m0, p)] + ks, p);
    SumInCons(rs, PanelKey, Amount, Key(m0, p), ks);
  }

  /** When ds covers every record's month, member p's spending over ds is
      p's total. */
  lemma ColumnCoversMember(rs: seq<Record>, ds: seq<Month>, p: int)
    requires forall i :: 0 <= i < |rs| ==> MonthKey(rs[i]) in ds
    ensures SumIn(rs, PanelKey, Amount, KeysOf(ds, p)) == SumAt(rs, PersonKey, Amount, p)
  {
    KeysOfMembers(ds, p);
    SumInSelect(rs, PanelKey, PersonKey, Amount, KeysOf(ds, p), p);
  }

  /** In the panel as built, the j-th member's column adds up to the
      member's total when the earliest transaction is on day 1; otherwise it
      misses the member's spending in the earliest transaction's month. When
      the range has no months the panel has no columns at all. The panel is
      built exactly when the bin edges of the grouping are in range. */
  lemma PanelConservation(rs: seq<Record>, j: nat)
    requires AllValid(rs) && j < |Members(rs)|
    ensures Panel(rs).Success? <==> BinEdgesInRange(rs)
    ensures Panel(rs).Success? && |Panel(rs).value.rows| == 0 ==> Panel(rs).value.cols == []
    ensures Panel(rs).Success? && |Panel(rs).value.rows| > 0 ==>
      && Panel(rs).value.cols == Members(rs)
      && Sum(Column(Panel(rs).value, j))
           == SumAt(rs, PersonKey, Amount, Members(rs)[j])
              - (if MinDate(rs).day == 1 then 0
                 else SumAt(rs, PanelKey, Amount, Key(MonthOf(MinDate(rs)), Members(rs)[j])))
  {
    MembersNonEmpty(rs);
    var lo, hi := MinDate(rs), MaxDate(rs);
    var ds := AllDates(lo, hi);
    var t := BuildPanel(rs, ds);
    if !BinEdgesInRange(rs) {
      return;
    }
    assert Panel(rs).value == t;
    if |ds| == 0 {
      return;
    }
    assert t.cols == Members(rs);
    var p := t.cols[j];
    MonthRangeShape(FirstMonthStart(lo), MonthOf(hi));
    ColumnTotal(rs, ds, j);
    if lo.day == 1 {
      RangeCoversAll(rs, p);
    } else {
      RangeMissesFirstMonth(rs, p);
    }
  }

  /** When the earliest date is on day 1, member p's spending over the range
      is p's total. */
  lemma RangeCoversAll(rs: seq<Record>, p: int)
    requires AllValid(rs) && |rs| > 0 && MinDate(rs).day == 1
    ensures SumIn(rs, PanelKey, Amount, KeysOf(AllDates(MinDate(rs), MaxDate(rs)), p))
      == SumAt(rs, PersonKey, Amount, p)
  {
    var lo, hi := MinDate(rs), MaxDate(rs);
    MonthRangeShape(FirstMonthStart(lo), MonthOf(hi));
    AllMonthsIncluded(rs);
    ColumnCoversMember(rs, AllDates(lo, hi), p);
  }

  /** When the earliest date is not on day 1, member p's spending over the
      range is p's total less p's spending in the earliest date's month. */
  lemma RangeMissesFirstMonth(rs: seq<Record>, p: int)
    requires AllValid(rs) && |rs| > 0 && MinDate(rs).day != 1
    ensures SumIn(rs, PanelKey, Amount, KeysOf(AllDates(MinDate(rs), MaxDate(rs)), p))
      == SumAt(rs, PersonKey, Amount, p) - SumAt(rs, PanelKey, Amount, Key(MonthOf(MinDate(rs)), p))
  {
    var lo, hi := MinDate(rs), MaxDate(rs);
    var ds := AllDates(lo, hi);
    MonthRangeShape(FirstMonthStart(lo), MonthOf(hi));
    MonthsWithinSpan(rs);
    forall i | 0 <= i < |rs|
      ensures MonthKey(rs[i]) == MonthOf(lo) || MonthKey(rs[i]) in ds
    {
      IndexInjective(MonthKey(rs[i]), MonthOf(lo));
    }
    assert MonthOf(lo) !in ds;
    SumMissingOneMonth(rs, ds, MonthOf(lo), p);
  }

  /** With the corrected range, every member's column adds up to the
      member's total spending. */
  lemma FixedPanelConservation(rs: seq<Record>, j: nat)
    requires AllValid(rs) && j < |Members(rs)|
    ensures FixedPanel(rs).cols == Members(rs)
    ensures Sum(Column(FixedPanel(rs), j)) == SumAt(rs, PersonKey, Amount, Members(rs)[j])
  {
    MembersNonEmpty(rs);
    var ds := Resample.Axis(rs);
    Resample.AxisShape(rs);
    assert FixedPanel(rs).cols == Members(rs);
    var p := FixedPanel(rs).cols[j];
    Resample.AxisCoversRecords(rs);
    ColumnTotal(rs, ds, j);
    KeysOfMembers(ds, p);
    SumInSelect(rs, PanelKey, PersonKey, Amount, KeysOf(ds, p), p);
  }

  // ---------------------------------------------------------------------
  // The two-transaction example

  /** $10.00 spent by member 1 on 2024-01-15 and $5.00 by member 2 on
      2024-03-02. */
  function Example(): (rs: seq<Record>)
    ensures AllValid(rs) && |rs| == 2 && BinEdgesInRange(rs)
  {
    [Record(Date(2024, 1, 15), 1000, 1), Record(Date(2024, 3, 2), 500, 2)]
  }

  /** The example's members in order of appearance and in ascending order. */
  lemma ExampleMembers()
    ensures Persons(Example()) == [1, 2]
    ensures SortedDistinct(Persons(Example())) == [1, 2]
  {
    ExamplePersons();
    ExampleSorted();
  }

  /** `unique()` on the example's PersonIDs. */
  lemma ExamplePersons()
    ensures Persons(Example()) == [1, 2]
  {
    var rs := Example();
    var all := Pick(rs, PersonKey);
    assert all == [1, 2];
    ExampleUnique();
  }

  /** `unique()` of [1, 2] keeps both values. */
  lemma ExampleUnique()
    ensures Unique([1, 2]) == [1, 2]
  {
    var one: seq<int> := [1];
    assert [1, 2][..1] == one;
    assert one[..0] == [];
    assert Unique(one) == one;
  }

  /** The sorted distinct values of [1, 2]. */
  lemma ExampleSorted()
    ensures SortedDistinct([1, 2]) == [1, 2]
  {
    var one: seq<int> := [1];
    assert [1, 2][..1] == one;
    assert one[..0] == [];
    assert SortedDistinct(one) == one;
    assert SortedDistinct([1, 2]) == Insert(2, one);
  }

  /** On the example the range built from the earliest date starts at
      2024-02-01, so member 1's column adds up to 0 although member 1 spent
      1000 cents. */
  lemma FirstMonthDropped()
    ensures Panel(Example()).Success?
    ensures Panel(Example()).value.rows == [Month(2024, 2), Month(2024, 3)]
    ensures Panel(Example()).value.cols == [1, 2]
    ensures Sum(Column(Panel(Example()).value, 0)) == 0
    ensures SumAt(Example(), PersonKey, Amount, 1) == 1000
  {
    ExamplePanel();
    ExampleMembers();
    ExampleDates();
    PanelConservation(Example(), 0);
    ExampleMemberOneTotal();
    ExampleJanuaryOfMemberOne();
  }

  /** The panel as built for the example: February and March 2024 against
      members 1 and 2. */
  lemma ExamplePanel()
    ensures Panel(Example()) == Success(BuildPanel(Example(), [Month(2024, 2), Month(2024, 3)]))
    ensures BuildPanel(Example(), [Month(2024, 2), Month(2024, 3)]).cols == [1, 2]
  {
    ExampleDates();
    ExampleMembers();
  }

  /** Member 1 spent 1000 cents in all. */
  lemma ExampleMemberOneTotal()
    ensures SumAt(Example(), PersonKey, Amount, 1) == 1000
  {
    var rs := Example();
    assert rs[..1] == [rs[0]];
    assert rs[..1][..0] == [];
  }

  /** Member 1 spent 1000 cents in January 2024. */
  lemma ExampleJanuaryOfMemberOne()
    ensures SumAt(Example(), PanelKey, Amount, Key(Month(2024, 1), 1)) == 1000
  {
    var rs := Example();
    assert rs[..1] == [rs[0]];
    assert rs[..1][..0] == [];
  }

  /** The example's earliest and latest dates, and the month-start range
      between them: February and March 2024. */
  lemma ExampleDates()
    ensures MinDate(Example()) == Date(2024, 1, 15) && MaxDate(Example()) == Date(2024, 3, 2)
    ensures AllDates(Date(2024, 1, 15), Date(2024, 3, 2)) == [Month(2024, 2), Month(2024, 3)]
  {
    var rs := Example();
    assert rs[..1] == [rs[0]];
    assert MonthRange(Month(2024, 3), Month(2024, 3)) == [Month(2024, 3)];
  }

  /** The example's months: January to March 2024. */
  lemma ExampleAxis()
    ensures Resample.Axis(Example()) == [Month(2024, 1), Month(2024, 2), Month(2024, 3)]
  {
    var rs := Example();
    assert rs[..1] == [rs[0]];
    assert MinDate(rs) == Date(2024, 1, 15);
    assert MaxDate(rs) == Date(2024, 3, 2);
    assert MonthRange(Month(2024, 3), Month(2024, 3)) == [Month(2024, 3)];
  }

  /** The corrected panel of the example covers January to March, and
      member 1's column keeps the 1000 cents. */
  lemma FixedPanelExample()
    ensures FixedPanel(Example()).rows == [Month(2024, 1), Month(2024, 2), Month(2024, 3)]
    ensures FixedPanel(Example()).cols == [1, 2]
    ensures Sum(Column(FixedPanel(Example()), 0)) == 1000
  {
    var rs := Example();
    var t := FixedPanel(rs);
    ExampleAxis();
    ExampleMembers();
    assert t.cols == SortedDistinct(Persons(rs)) == [1, 2];
    FixedPanelConservation(rs, 0);
    ExampleMemberOneTotal();
  }

  /** One transaction, $10.00 by member 1 on 2024-01-15. */
  function MidMonth(): (rs: seq<Record>)
    ensures AllValid(rs) && |rs| == 1 && BinEdgesInRange(rs)
  {
    [Record(Date(2024, 1, 15), 1000, 1)]
  }

  /** For MidMonth the range from the 15th rolls forward to 2024-02-01, past
      the end, so the panel has no months, and with them no columns: member
      1's 1000 cents appear nowhere. */
  lemma SingleMidMonthPanel()
    ensures Panel(MidMonth()).Success?
    ensures Panel(MidMonth()).value.rows == []
    ensures Panel(MidMonth()).value.cols == []
    ensures SumAt(MidMonth(), PersonKey, Amount, 1) == 1000
  {
    MidMonthDates();
    assert Panel(MidMonth()) == Success(BuildPanel(MidMonth(), []));
    var rs := MidMonth();
    assert rs[..0] == [];
  }

  /** MidMonth's earliest and latest dates, and its empty month range. */
  lemma MidMonthDates()
    ensures MinDate(MidMonth()) == Date(2024, 1, 15) && MaxDate(MidMonth()) == Date(2024, 1, 15)
    ensures AllDates(Date(2024, 1, 15), Date(2024, 1, 15)) == []
  {
  }

  /** The grouping at line 48 raises on the late purchase for the same reason
      as the resample. */
  lemma LatePurchasePanel()
    ensures MemberPanelOf(Resample.LatePurchase()) == Failure(BinOutOfBounds)
  {
  }
}

=== FILE: purchases.dfy ===
/** Purchase records as the queries return them (CostcoSpendingAnalysis.py
    reads TransactionDate, SoldPrice and PersonID), the date conversion of
    `process_data`, and the per-record keys and values the aggregations use. */
module Purchases {
  import opened Results
  import opened Calendar
  import opened Seqs

  /** One transaction row: its date, SoldPrice in cents, and PersonID. */
  datatype Record = Record(date: Date, amount: int, person: int)

  /** Why `pd.to_datetime` rejects a column: the row index and the reason. */
  datatype DateError = NotADate(row: nat) | OutOfBounds(row: nat)

  /** pandas stores timestamps as 64-bit nanoseconds since 1970, which
      covers midnight of 1677-09-22 through midnight of 2262-04-11. */
  predicate InTimestampRange(d: Date) {
    DateLe(Date(1677, 9, 22), d) && DateLe(d, Date(2262, 4, 11))
  }

  /** A date `pd.to_datetime` converts without raising. */
  predicate Convertible(d: Date) {
    ValidDate(d) && InTimestampRange(d)
  }

  predicate AllValid(rs: seq<Record>) {
    forall i :: 0 <= i < |rs| ==> ValidDate(rs[i].date)
  }

  function ConvertFrom(rows: seq<Record>, i: nat): (r: Result<seq<Record>, DateError>)
    requires i <= |rows|
    ensures r.Success? <==> forall j :: i <= j < |rows| ==> Convertible(rows[j].date)
    ensures r.Success? ==> r.value == rows
    ensures r.Failure? ==>
      && i <= r.error.row < |rows|
      && (forall j :: i <= j < r.error.row ==> Convertible(rows[j].date))
      && (r.error.NotADate? <==> !ValidDate(rows[r.error.row].date))
      && !Convertible(rows[r.error.row].date)
    decreases |rows| - i
  {
    if i == |rows| then Success(rows)
    else if !ValidDate(rows[i].date) then Failure(NotADate(i))
    else if !InTimestampRange(rows[i].date) then Failure(OutOfBounds(i))
    else ConvertFrom(rows, i + 1)
  }

  /** `process_data`: converts the date column and makes it the index. The
      rows are unchanged when every date converts; otherwise the first row
      whose date does not convert is reported. */
  function ProcessData(rows: seq<Record>): (r: Result<seq<Record>, DateError>)
    ensures r.Success? <==> forall j :: 0 <= j < |rows| ==> Convertible(rows[j].date)
    ensures r.Success? ==> r.value == rows && AllValid(r.value)
    ensures r.Failure? ==>
      && r.error.row < |rows|
      && (forall j :: 0 <= j < r.error.row ==> Convertible(rows[j].date))
      && !Convertible(rows[r.error.row].date)
      && (r.error.NotADate? <==> !ValidDate(rows[r.error.row].date))
  {
    ConvertFrom(rows, 0)
  }

  /** The earliest transaction date (the index minimum). */
  function MinDate(rs: seq<Record>): (d: Date)
    requires |rs| > 0
    ensures exists i :: 0 <= i < |rs| && rs[i].date == d
    ensures forall i :: 0 <= i < |rs| ==> DateLe(d, rs[i].date)
  {
    if |rs| == 1 then rs[0].date
    else
      var m := MinDate(rs[..|rs| - 1]);
      assert forall i :: 0 <= i < |rs| - 1 ==> rs[..|rs| - 1][i] == rs[i];
      if DateLe(m, rs[|rs| - 1].date) then m else rs[|rs| - 1].date
  }

  /** The latest transaction date (the index maximum). */
  function MaxDate(rs: seq<Record>): (d: Date)
    requires |rs| > 0
    ensures exists i :: 0 <= i < |rs| && rs[i].date == d
    ensures forall i :: 0 <= i < |rs| ==> DateLe(rs[i].date, d)
  {
    if |rs| == 1 then rs[0].date
    else
      var m := MaxDate(rs[..|rs| - 1]);
      assert forall i :: 0 <= i < |rs| - 1 ==> rs[..|rs| - 1][i] == rs[i];
      if DateLe(rs[|rs| - 1].date, m) then m else rs[|rs| - 1].date
  }

  /** The month bucket a record falls in ('MS' resampling key). */
  function MonthKey(r: Record): Month {
    MonthOf(r.date)
  }

  /** The PersonIDs that occur in the data. */
  function PersonSet(rs: seq<Record>): set<int> {
    ImageSet(rs, PersonKey)
  }

  function PersonKey(r: Record): int {
    r.person
  }

  function Amount(r: Record): int {
    r.amount
  }

  /** Every record's month lies between the months of the earliest and the
      latest date. */
  lemma MonthsWithinSpan(rs: seq<Record>)
    requires |rs| > 0 && AllValid(rs)
    ensures forall i :: 0 <= i < |rs| ==>
      Index(MonthOf(MinDate(rs))) <= Index(MonthKey(rs[i])) <= Index(MonthOf(MaxDate(rs)))
  {
    var lo, hi := MinDate(rs), MaxDate(rs);
    forall i | 0 <= i < |rs|
      ensures Index(MonthOf(lo)) <= Index(MonthKey(rs[i])) <= Index(MonthOf(hi))
    {
      MonthOfMonotone(lo, rs[i].date);
      MonthOfMonotone(rs[i].date, hi);
    }
  }

  /** The edges of the 'MS' bins that `resample('MS')` and
      `pd.Grouper(freq="MS")` compute lie within the timestamp range. Those
      edges are the month-start on or before the earliest date and the
      month-start after the latest date. When either edge lies outside the
      range, pandas raises OutOfBoundsDatetime. An empty table has no edges. */
  predicate BinEdgesInRange(rs: seq<Record>)
    requires AllValid(rs)
  {
    |rs| == 0
    || (InTimestampRange(FirstDay(MonthOf(MinDate(rs))))
        && InTimestampRange(FirstDay(Next(MonthOf(MaxDate(rs))))))
  }

  /** For dates that convert, the bin edges stay in range exactly when no
      date falls in the partial first month (1677-09-22..30) or the partial
      last month (2262-04-01..11) of the timestamp range. */
  lemma BinEdgesWithin(rs: seq<Record>)
    requires AllValid(rs)
    requires forall i :: 0 <= i < |rs| ==> Convertible(rs[i].date)
    ensures BinEdgesInRange(rs) <==>
      forall i :: 0 <= i < |rs| ==>
        DateLe(Date(1677, 10, 1), rs[i].date) && DateLe(rs[i].date, Date(2262, 3, 31))
  {
  }
}

=== FILE: resample.dfy ===
/** `df.resample('MS').sum()` and `.resample('MS').count()` over the
    household spending table (CostcoSpendingAnalysis.py:17-20): one bucket per
    calendar month, labelled by its month-start, from the month of the
    earliest transaction to the month of the latest. */
module Resample {
  import opened Results
  import opened Calendar
  import opened Seqs
  import opened Buckets
  import opened Purchases

  /** A month-indexed column: values[i] belongs to the month index[i]. */
  datatype Series = Series(index: seq<Month>, values: seq<int>)

  /** Why lines 17-20 raise: `pd.to_datetime` rejects a date (line 18), or
      an edge of the 'MS' bins lies outside the timestamp range (line 19). */
  datatype ResampleError = BadDate(cause: DateError) | BinOutOfBounds

  /** The bins of an 'MS' resample: every month from the earliest record's
      month to the latest's; no bins for an empty table. */
  function Axis(rs: seq<Record>): seq<Month>
    requires AllValid(rs)
  {
    if |rs| == 0 then [] else MonthRange(MonthOf(MinDate(rs)), MonthOf(MaxDate(rs)))
  }

  /** `resample('MS').sum()`: dollars (in cents) per month. */
  function MonthlyDollars(rs: seq<Record>): (s: Series)
    requires AllValid(rs)
    ensures s.index == Axis(rs) && |s.values| == |s.index|
  {
    Series(Axis(rs), PerKey(rs, MonthKey, Amount, Axis(rs)))
  }

  /** `resample('MS').count()`: number of items per month. */
  function MonthlyItems(rs: seq<Record>): (s: Series)
    requires AllValid(rs)
    ensures s.index == Axis(rs) && |s.values| == |s.index|
  {
    Series(Axis(rs), PerKey(rs, MonthKey, One, Axis(rs)))
  }

  /** The resampled axis runs from the earliest record's month to the
      latest's, and is empty only for an empty table. */
  lemma AxisEnds(rs: seq<Record>)
    requires AllValid(rs)
    ensures |Axis(rs)| == 0 <==> |rs| == 0
    ensures |rs| > 0 ==>
      Axis(rs)[0] == MonthOf(MinDate(rs)) && Axis(rs)[|Axis(rs)| - 1] == MonthOf(MaxDate(rs))
  {
    if |rs| > 0 {
      var hi := MonthOf(MaxDate(rs));
      MonthOfMonotone(MinDate(rs), MaxDate(rs));
      var a := Axis(rs);
      IndexInjective(a[0], MonthOf(MinDate(rs)));
      IndexInjective(a[|a| - 1], hi);
    }
  }

  /** The resampled axis is contiguous and strictly increasing, runs from the
      earliest record's month to the latest's, and is empty only for an
      empty table. */
  lemma AxisShape(rs: seq<Record>)
    requires AllValid(rs)
    ensures Consecutive(Axis(rs)) && Increasing(Axis(rs))
    ensures |Axis(rs)| == 0 <==> |rs| == 0
    ensures |rs| > 0 ==>
      Axis(rs)[0] == MonthOf(MinDate(rs)) && Axis(rs)[|Axis(rs)| - 1] == MonthOf(MaxDate(rs))
  {
    if |rs| > 0 {
      MonthRangeConsecutive(MonthOf(MinDate(rs)), MonthOf(MaxDate(rs)));
    }
    AxisEnds(rs);
  }

  /** Every record falls in exactly one bucket: the one labelled with the
      first day of the record's month. */
  lemma EachRecordOneBucket(rs: seq<Record>, i: nat)
    requires AllValid(rs) && i < |rs|
    ensures exists j :: 0 <= j < |Axis(rs)| && FirstDay(Axis(rs)[j]) == FirstDay(MonthOf(rs[i].date))
    ensures forall j, k :: 0 <= j < |Axis(rs)| && 0 <= k < |Axis(rs)| && Axis(rs)[j] == MonthKey(rs[i]) && Axis(rs)[k] == MonthKey(rs[i]) ==> j == k
  {
    var a := Axis(rs);
    AxisShape(rs);
    AxisCoversRecords(rs);
    var j :| 0 <= j < |a| && a[j] == MonthKey(rs[i]);
    assert FirstDay(a[j]) == FirstDay(MonthOf(rs[i].date));
  }

  /** A month with no transactions gets a zero dollar bucket and a zero count. */
  lemma EmptyMonthsZero(rs: seq<Record>, m: Month)
    requires AllValid(rs)
    requires forall i :: 0 <= i < |rs| ==> MonthKey(rs[i]) != m
    ensures forall j :: 0 <= j < |Axis(rs)| && Axis(rs)[j] == m ==>
      MonthlyDollars(rs).values[j] == 0 && MonthlyItems(rs).values[j] == 0
  {
    SumAtAbsent(rs, MonthKey, Amount, m);
    SumAtAbsent(rs, MonthKey, One, m);
  }

  /** Counting: summing one per record counts the records. */
  lemma {:induction false} CountAll(rs: seq<Record>)
    ensures SumAll(rs, One) == |rs|
  {
    if |rs| > 0 {
      CountAll(rs[..|rs| - 1]);
    }
  }

  /** Every record's month is one of the axis months. */
  lemma AxisCoversRecords(rs: seq<Record>)
    requires AllValid(rs)
    ensures forall i :: 0 <= i < |rs| ==> MonthKey(rs[i]) in Axis(rs)
  {
    if |rs| > 0 {
      MonthsWithinSpan(rs);
      MonthRangeShape(MonthOf(MinDate(rs)), MonthOf(MaxDate(rs)));
    }
  }

  /** Conservation of dollars: the monthly buckets add up to the total
      SoldPrice. */
  lemma DollarConservation(rs: seq<Record>)
    requires AllValid(rs)
    ensures Sum(MonthlyDollars(rs).values) == SumAll(rs, Amount)
  {
    var a := Axis(rs);
    AxisShape(rs);
    AxisCoversRecords(rs);
    PerKeyConservation(rs, MonthKey, Amount, a);
    SumInCovered(rs, MonthKey, Amount, a);
  }

  /** Conservation of items: the monthly counts add up to the number of
      transactions. */
  lemma ItemConservation(rs: seq<Record>)
    requires AllValid(rs)
    ensures Sum(MonthlyItems(rs).values) == |rs|
  {
    var a := Axis(rs);
    AxisShape(rs);
    AxisCoversRecords(rs);
    PerKeyConservation(rs, MonthKey, One, a);
    SumInCovered(rs, MonthKey, One, a);
    CountAll(rs);
  }

  /** Lines 17-20: convert the dates of the household spending table, then
      resample it to monthly dollars and monthly item counts. Either the
      conversion raises, or an 'MS' bin edge is out of range and the
      resample raises, or both series share the month axis and add up to
      the table's total and its number of rows. */
  function HouseholdMonthly(rows: seq<Record>): (r: Result<(Series, Series), ResampleError>)
    ensures ProcessData(rows).Failure? ==> r == Failure(BadDate(ProcessData(rows).error))
    ensures ProcessData(rows).Success? && !BinEdgesInRange(rows) ==> r == Failure(BinOutOfBounds)
    ensures r.Success? <==> ProcessData(rows).Success? && BinEdgesInRange(rows)
    ensures r.Success? ==>
      && r.value.0.index == r.value.1.index
      && Sum(r.value.0.values) == SumAll(rows, Amount)
      && Sum(r.value.1.values) == |rows|
  {
    match ProcessData(rows)
    case Failure(e) => Failure(BadDate(e))
    case Success(rs) =>
      if !BinEdgesInRange(rs) then Failure(BinOutOfBounds)
      else
        DollarConservation(rs);
        ItemConservation(rs);
        Success((MonthlyDollars(rs), MonthlyItems(rs)))
  }

  /** One purchase, $1.00 by member 1 on 2262-04-05: a date inside the
      timestamp range, in the range's partial last month. */
  function LatePurchase(): (rs: seq<Record>)
    ensures |rs| == 1 && AllValid(rs)
  {
    [Record(Date(2262, 4, 5), 100, 1)]
  }

  /** The late purchase converts, but the last 'MS' bin edge, 2262-05-01,
      lies past the timestamp range, so the resample raises. */
  lemma LatePurchaseRaises()
    ensures ProcessData(LatePurchase()).Success?
    ensures !BinEdgesInRange(LatePurchase())
    ensures HouseholdMonthly(LatePurchase()) == Failure(BinOutOfBounds)
  {
  }
}

=== FILE: results.dfy ===
/** Failure-carrying return values for the operations that raise in
    CostcoSpendingAnalysis.py (a date pandas cannot convert, a NaT date range,
    a legend label that does not decode, a member id missing from the
    directory). */
module Results {

  /** Either the value an operation computed or the error it raised. */
  datatype Result<+T, +E> = Success(value: T) | Failure(error: E)

  /** A value that may be absent. */
  datatype Option<+T> = None | Some(value: T)
}

=== FILE: seqs.dfy ===
/** Sequence helpers: sums, the column of a sequence of rows, distinctness,
    pandas' `unique()` (first-appearance order) and the sorted distinct
    values a pandas index level holds. */
module Seqs {

  /** Sum of a sequence of integers. */
  function Sum(xs: seq<int>): int {
    if |xs| == 0 then 0 else xs[0] + Sum(xs[1..])
  }

  /** Sum of a sequence of reals. */
  function SumReal(xs: seq<real>): real {
    if |xs| == 0 then 0.0 else xs[0] + SumReal(xs[1..])
  }

  /** The values f takes on the elements of s. */
  function ImageSet<T(==), U>(s: seq<T>, f: T -> U): set<U> {
    set x | x in s :: f(x)
  }

  /** One column of a table of rows (`df[column]`): f of every row, in row
      order. Its values are exactly the values f takes on the rows. */
  function Pick<T(==), U(!new)>(s: seq<T>, f: T -> U): (r: seq<U>)
    ensures |r| == |s| && forall i :: 0 <= i < |s| ==> r[i] == f(s[i])
    ensures forall y :: y in r <==> y in ImageSet(s, f)
  {
    var r := seq(|s|, i requires 0 <= i < |s| => f(s[i]));
    assert forall y :: y in ImageSet(s, f) ==> y in r by {
      forall y | y in ImageSet(s, f)
        ensures y in r
      {
        var x :| x in s && f(x) == y;
        var i :| 0 <= i < |s| && s[i] == x;
        assert r[i] == y;
      }
    }
    r
  }

  predicate Distinct<T(==)>(s: seq<T>) {
    forall i, j :: 0 <= i < j < |s| ==> s[i] != s[j]
  }

  predicate StrictlyIncreasing(s: seq<int>) {
    forall i, j :: 0 <= i < j < |s| ==> s[i] < s[j]
  }

  /** The distinct elements of s in the order of their first appearance
      (pandas' `Series.unique`); UniqueInOrder states the order. */
  function Unique<T(==, !new)>(s: seq<T>): (r: seq<T>)
    ensures Distinct(r)
    ensures forall x :: x in r <==> x in s
    ensures |r| <= |s|
  {
    if |s| == 0 then []
    else
      var u := Unique(s[..|s| - 1]);
      assert forall x :: x in s <==> x in s[..|s| - 1] || x == s[|s| - 1];
      if s[|s| - 1] in u then u else u + [s[|s| - 1]]
  }

  /** The position of the first occurrence of x in s. */
  function FirstIndex<T(==)>(s: seq<T>, x: T): (i: nat)
    requires x in s
    ensures i < |s| && s[i] == x
    ensures forall k :: 0 <= k < i ==> s[k] != x
  {
    if s[0] == x then 0 else FirstIndex(s[1..], x) + 1
  }

  /** A value that occurs in a prefix first occurs at the same position in
      the whole sequence. */
  lemma FirstIndexPrefix<T>(s: seq<T>, n: nat, x: T)
    requires n <= |s| && x in s[..n]
    ensures FirstIndex(s, x) == FirstIndex(s[..n], x)
  {
    var a, b := FirstIndex(s, x), FirstIndex(s[..n], x);
    assert s[b] == s[..n][b] == x;
    assert a <= b;
    assert s[..n][a] == s[a] == x;
  }

  /** `unique()` lists its values in the order in which they first occur. */
  lemma {:induction false} UniqueInOrder<T(!new)>(s: seq<T>)
    ensures forall i, j :: 0 <= i < j < |Unique(s)| ==>
      FirstIndex(s, Unique(s)[i]) < FirstIndex(s, Unique(s)[j])
  {
    if |s| > 0 {
      var init := s[..|s| - 1];
      var last := s[|s| - 1];
      var u := Unique(init);
      UniqueInOrder(init);
      forall x | x in u
        ensures FirstIndex(s, x) == FirstIndex(init, x) < |init|
      {
        FirstIndexPrefix(s, |s| - 1, x);
      }
      if last !in u {
        assert Unique(s) == u + [last];
        assert FirstIndex(s, last) == |init|;
      }
    }
  }

  /** Inserts x into a strictly increasing sequence, keeping it strictly
      increasing and without duplicates. */
  function Insert(x: int, s: seq<int>): (r: seq<int>)
    requires StrictlyIncreasing(s)
    ensures StrictlyIncreasing(r)
    ensures forall y :: y in r <==> y == x || y in s
  {
    if |s| == 0 then [x]
    else if x < s[0] then [x] + s
    else if x == s[0] then s
    else
      var t := Insert(x, s[1..]);
      assert forall y :: y in s <==> y == s[0] || y in s[1..];
      assert forall i :: 0 <= i < |t| ==> s[0] < t[i] by {
        forall i | 0 <= i < |t|
          ensures s[0] < t[i]
        {
          assert t[i] in t;
        }
      }
      [s[0]] + t
  }

  /** The distinct values of s in ascending order, as an index level that
      pandas sorts (the columns `unstack` and the rows `pivot_table` produce). */
  function SortedDistinct(s: seq<int>): (r: seq<int>)
    ensures StrictlyIncreasing(r)
    ensures forall x :: x in r <==> x in s
  {
    if |s| == 0 then []
    else
      assert forall x :: x in s <==> x in s[..|s| - 1] || x == s[|s| - 1];
      Insert(s[|s| - 1], SortedDistinct(s[..|s| - 1]))
  }
}
